=== FILE: README.md ===
# biblesearch in Dafny

A model of the string and sequence logic of biblesearch. The program has two
front-ends over one flat King James text file, in which each line reads
`<Abbrev> <Chapter>:<Verse> <text>`:

- `biblesearch.py` is a terminal REPL. It loads the file into an
  insertion-ordered dict from "book chapter:verse" keys to verse text. It
  answers `B,C` chapter listings, `B,C,V` verse lookups, `S` pattern searches,
  `W` (wrap toggle) and `Q` (quit). Verses containing one of seven marker
  phrases print red; all others print dim.
- `tk.biblesearch.2.0.py` is a Tk window over the raw lines. It holds the
  `books` table (abbreviation to ordinal, chapter count and full name). Its
  chapter drop-down follows the selected book. A search can be scoped to a
  book and chapter, and matches whole words (`perform_search`, bound to the
  Search button and the Return key). A substring variant, `perform_search2`,
  is defined but never bound to a widget. Found rows carry the book's full
  name. A chapter window numbers and highlights verses
  and has Next and Previous buttons.

Modules, one concept each:

| file | module | what it holds |
|---|---|---|
| options.dfy | Options | `Option` and `Result` |
| seqs.dfy | Seqs | order-preserving filter (list comprehensions), subsequences, first match (`next(...)`) |
| text.dfy | Text | the Python string builtins used: `re.split` on one character class, `str.split()`, `' '.join`, `strip`, ASCII `lower`, substring and prefix tests, `int`/`str` on naturals |
| books.dfy | Books | the 67-row `books` table, lookup by abbreviation and by full name |
| store.dfy | Store | the insertion-ordered dict: `d[k] = v`, `d.get`, the order of keys under repeated assignment |
| loader.dfy | Loader | the REPL's load loop, line to entry, with its IndexError cases |
| queries.dfy | Queries | `search_bible` and `search_books` |
| classifier.dfy | Classifier | the red/dim marker chain of `print_verse` |
| repl.dfy | Repl | command dispatch and one turn of the REPL loop |
| gui.dfy | Gui | `update_chapters`, the search scope, the two hit tests, the row regex, result rows, `get_verses_for_chapter` |
| popup.dfy | Popup | `populate_verses`, opening the chapter window, Next/Previous navigation |

All files are one program. Verify them together, from this directory:

    dafny verify --resource-limit 2000000 --verification-time-limit 0 --warn-contradictory-assumptions *.dfy

An exception that ends a Python handler is modelled as a value carrying the
state at the point of the raise:

- a load that hits a malformed line is `Err(LoadError(line, fault))`;
- a search that raises part-way is `Stopped(rows so far, failure)`;
- a failed `next(...)` over the book table is `None`.

The model follows the code. These behaviours of the code are easy to miss:

- **Repeated key.** A repeated key keeps its first position in the dict, and
  its text is that of the later line (last write wins).
- **Malformed line.** A line without a second field, or without ':' in that
  field, raises IndexError, and the exception ends the whole load.
- **Next at the last chapter.** The docstring of `next_chapter`
  (tk.biblesearch.2.0.py:518-525) says Next is disabled when there is no
  subsequent chapter. The code always advances the chapter number first and
  disables the button only when the new chapter has no verses, so at the end
  of a book the window's chapter is one past the last chapter with verses.
  `Popup.PreviousAfterNext` shows the consequence: after Next at the last
  chapter, Previous shows that same chapter again.
- **Previous at chapter 1.** The docstring of `previous_chapter`
  (tk.biblesearch.2.0.py:541-548) says Previous is disabled at the first
  chapter. The code does this, and keeps the chapter. Neither button ever
  re-enables the other.
- **Chapter listing in the REPL.** The listing matches "b c:" anywhere in a
  key, so a book part only has to end the key's book. "Jo,1" lists the first
  chapters of 1 John, 2 John and 3 John (`Queries.SearchBooksExact`).
- **Search scope in the GUI.** The scope tests `line.startswith(abbrev)`, a
  plain prefix test with no space after the abbreviation.
- **Verse numbers in the chapter window.** Verses are numbered by their
  position in the list, not by the verse number in the data.

## Model

| member | source | states |
|---|---|---|
| Books.Lookup | tk.biblesearch.2.0.py:28-96 | `books[abbrev]` succeeds exactly when some row has that abbreviation, and returns a row of the table with that abbreviation |
| Books.AbbrevForName | tk.biblesearch.2.0.py:283-287 | the reverse lookup succeeds exactly when some row has that full name, and returns the abbreviation of such a row |
| Books.Ordinals | tk.biblesearch.2.0.py:28-96 | the sentinel row is "All" with ordinal 0, 0 chapters and name "All Books"; the 66 books have ordinals 1..66 in canon order and at least one chapter each |
| Books.ColumnsDistinct | tk.biblesearch.2.0.py:28-96 | no two rows share an abbreviation or a full name, so both lookups are functions |
| Books.LookupRow | tk.biblesearch.2.0.py:28-96 | looking up a row's abbreviation returns that very row |
| Books.NameRoundTrip | tk.biblesearch.2.0.py:283-288 | the reverse lookup of a row's full name gives its abbreviation, and the forward lookup of that abbreviation gives the row back |
| Seqs.Filter | biblesearch.py:161 | a comprehension keeps only elements passing the test, keeps every element that passes, and never grows |
| Seqs.FilterCounts | biblesearch.py:161 | a comprehension keeps every copy of a passing element and no copy of a failing one |
| Seqs.FilterIsSubseq | biblesearch.py:161 | a comprehension keeps its elements in their original order |
| Seqs.FilterMonotone | tk.biblesearch.2.0.py:322-324 | a weaker test keeps a supersequence of what a stronger test keeps |
| Seqs.FirstWhere | tk.biblesearch.2.0.py:390-394 | `next(...)` finds the first element passing the test, and finds none exactly when no element passes |
| Text.Split | biblesearch.py:222 | `re.split('\s', line)` yields at least one field and no field holds whitespace |
| Text.Words | tk.biblesearch.2.0.py:397 | `line.split()` yields non-empty, whitespace-free fields |
| Text.WordsOfRun | tk.biblesearch.2.0.py:397 | a non-empty run without whitespace is one word |
| Text.WordsSkipSpace | tk.biblesearch.2.0.py:397 | leading whitespace starts no word |
| Text.WordsCons | tk.biblesearch.2.0.py:397 | a run ended by whitespace is the first word, and the words of the rest follow |
| Text.WordsEmpty | biblesearch.py:324 | `split()` gives no words exactly when the string is all whitespace |
| Text.JoinSingleSpaces | biblesearch.py:327 | joining whitespace-free words with " " leaves the plain space as the only whitespace |
| Text.Lower | tk.biblesearch.2.0.py:367 | `lower()` keeps the length and lower-cases each character on its own |
| Text.Decimal | tk.biblesearch.2.0.py:529 | `str(n)` is a non-empty string of digits with no leading zero: it starts with '0' exactly for n = 0 |
| Text.ParseNat | tk.biblesearch.2.0.py:552 | `int(s)` succeeds exactly on a non-empty string of digits |
| Text.Strip | biblesearch.py:278 | `str.strip` returns the middle slice whose ends are not whitespace, with only whitespace cut off on either side |
| Text.ParseDecimal | tk.biblesearch.2.0.py:529 | `int(str(n)) == n`: writing a natural in decimal and reading it back is the identity |
| Text.SplitLine | biblesearch.py:222-233 | a line "b cv rest" splits into `b`, `cv` and the fields of `rest` |
| Text.JoinSplit | biblesearch.py:233 | splitting at one separator and joining with it gives the string back |
| Store.Get | biblesearch.py:303 | a key is found exactly when it is among the dict's keys, and then with the text stored under it |
| Store.Put | biblesearch.py:237 | after `d[k] = v` the key holds `v` and every other key holds what it held |
| Store.PutKeys | biblesearch.py:237 | an existing key keeps its position, and a new key is appended last |
| Store.PutKeepsUnique | biblesearch.py:237 | assignment keeps the keys distinct |
| Store.Assign | biblesearch.py:220-237 | assigning the entries in turn to an empty dict gives a dict whose keys are distinct |
| Store.AssignLastWriteWins | biblesearch.py:220-237 | after the assignments, every key holds the text of its last entry and only keys of some entry are present |
| Store.AssignKeysDedup | biblesearch.py:220-237 | the dict lists the keys of the entries in order of first occurrence, each once |
| Store.DedupMembers | biblesearch.py:220-237 | deduplication keeps exactly the keys present |
| Store.DedupOrder | biblesearch.py:220-237 | deduplicated keys are ordered by first occurrence |
| Store.AssignKeys | biblesearch.py:220-237 | a key is in the dict exactly when some entry has it |
| Store.AssignKeepsFirstPosition | biblesearch.py:220-237 | the dict's keys are ordered by the first entry of each |
| Loader.ParseLineFaults | biblesearch.py:222-230 | `fields[1]` raises exactly on a line without whitespace; `cv[1]` raises exactly when the second field holds no ':' |
| Loader.ParseLine | biblesearch.py:222-236 | a line gives an entry exactly when it has a second field holding ':'; the key starts with the first field and a space |
| Loader.ParseAll | biblesearch.py:220-237 | a successful parse gives one entry per line; a failure names a line of the file |
| Loader.Load | biblesearch.py:219-237 | the load succeeds exactly when every line parses, giving a dict with distinct keys; a failed load names a line whose parse fails, with that fault, after lines that all parse |
| Loader.SplitChapterVerse | biblesearch.py:228-230 | the field "c:v..." splits into chapter `c` and verse `v`, with anything after a second ':' dropped |
| Loader.ParseWellFormed | biblesearch.py:222-236 | a line "b c:v rest" is stored under "b c:v" with the single-whitespace fields of `rest` joined by spaces |
| Loader.ParsePlainText | biblesearch.py:222-236 | a line whose text has no whitespace but single spaces stores that text verbatim |
| Loader.ParseAllLines | biblesearch.py:220-237 | the load fails exactly when some line fails, and then at the first such line with its fault; otherwise line i gives entry i |
| Loader.LoadLastWriteWins | biblesearch.py:235-237 | after a load, each key holds the text of the last line with that key |
| Loader.LoadKeys | biblesearch.py:220-237 | the loaded keys are exactly the keys of the lines |
| Loader.LoadKeepsFirstPosition | biblesearch.py:220-237 | the loaded keys are ordered by the first line of each key |
| Queries.SearchBible | biblesearch.py:140-151 | the loop returns exactly the keys, in dict order, of the entries whose text the pattern finds, and no more keys than entries |
| Queries.MatchingKeys | biblesearch.py:145-151 | no more keys than entries, and every key returned is that of an entry whose text the pattern finds |
| Queries.Literal | biblesearch.py:147 | the case-insensitive literal pattern matches a text exactly when some slice of the text equals the query ignoring case; so it finds the query in any `pre + q + post`, only matches texts at least as long as the query, and lower-casing the text does not change whether it matches |
| Queries.MatchingKeysOrdered | biblesearch.py:145-151 | the search result is a subsequence of the dict's keys with no key twice |
| Queries.MatchingKeysExact | biblesearch.py:148-150 | an entry's key is returned exactly when the pattern finds its text |
| Queries.MatchingKeysIn | biblesearch.py:148-150 | every key returned is a key of the dict |
| Queries.LiteralIgnoresCase | biblesearch.py:147 | with a literal case-insensitive pattern, lower-casing the query changes nothing |
| Queries.SearchBooks | biblesearch.py:154-162 | the listing holds only keys containing "bc:", and every key containing it |
| Queries.SearchBooksOrdered | biblesearch.py:158-162 | the listing keeps dict order and lists no key twice |
| Queries.ChapterPattern | biblesearch.py:156-161 | a key "b' c1:v" contains "b c:" exactly when `b` ends `b'` and `c1` is `c`: the ':' keeps chapter 1 from matching chapter 11 |
| Queries.ChapterPatternOnlyIf | biblesearch.py:156-161 | a key containing "b c:" has a book ending in `b` and chapter `c` |
| Queries.ChapterPatternIf | biblesearch.py:156-161 | a key whose book ends in `b` and whose chapter is `c` contains "b c:" |
| Queries.SearchBooksExact | biblesearch.py:157-161 | the listing "b c" includes the dict's verse "b' c1:v" exactly when `b` ends `b'` and `c1` is `c` |
| Queries.KeySpace | biblesearch.py:236 | the only whitespace in a key "b c:v" is the space after the book |
| Queries.ColonEndsField | biblesearch.py:157 | two colon-free fields each followed by ':' at the start of a string are equal |
| Classifier.FirstMarker | biblesearch.py:176-189 | the chain fires on the first marker, in the listed order, that the text contains, and on none exactly when no marker is contained |
| Classifier.Classify | biblesearch.py:176-193 | a verse is red exactly when it contains one of the seven markers, ignoring case, and dim otherwise |
| Classifier.RedInContext | biblesearch.py:176-189 | a red verse stays red with any text around it |
| Classifier.ClassifyIgnoresCase | biblesearch.py:176-189 | lower-casing the verse does not change its colour |
| Classifier.MarkerExamples | biblesearch.py:176-193 | "and Jesus said unto them" is red; "Amen." is dim |
| Classifier.ContainsInContext | biblesearch.py:176 | a phrase found in a text is found with more text around it |
| Repl.ShowAll | biblesearch.py:289-290 | one shown verse per key, in order, each with its stored text and its colour |
| Repl.Step | biblesearch.py:271-342 | the loop goes on unless the command is quit; the wrap flag flips exactly on a "W" or "w" line (through ParseCommand); every verse shown is a stored key with its stored text |
| Repl.QuitOnlyOnQ | biblesearch.py:312-313 | the loop ends exactly on "Q" or "q" |
| Repl.ParseCommand | biblesearch.py:271-342 | the command is quit exactly for "Q" or "q", help exactly for "?", the wrap toggle exactly for "W" or "w", and search exactly for "S" or "s"; a listing or a lookup needs a comma, and a line with a comma is a listing, a lookup or invalid |
| Repl.WrapTwice | biblesearch.py:318-321 | one W turn flips the wrap flag, and a second restores it |
| Repl.ParseListing | biblesearch.py:271-278 | two comma-free parts are a chapter listing of the stripped parts |
| Repl.ParseExact | biblesearch.py:292-297 | three comma-free parts are a verse lookup of the stripped parts |
| Repl.ParseTooManyParts | biblesearch.py:309-310 | four or more comma-separated parts are an invalid command |
| Repl.StepListing | biblesearch.py:276-290 | a listing shows the keys `search_books` returns for "b c", in order, and says "not found" exactly when there are none |
| Repl.StepExact | biblesearch.py:292-308 | a lookup shows the verse "b c:v" exactly when that key is stored, and says "not found" otherwise |
| Repl.StepSearch | biblesearch.py:322-340 | a search shows the matching keys in the order `search_bible` returns them, one verse each, says "nothing matched" exactly when no text matches, and otherwise reports the number shown |
| Repl.StripClean | biblesearch.py:278 | a string without whitespace at its ends strips to itself |
| Repl.SplitComma | biblesearch.py:274 | a comma-free first part is the first comma field |
| Gui.Choices | tk.biblesearch.2.0.py:289 | the drop-down is "ALL" followed by 1..n |
| Gui.UpdateChapters | tk.biblesearch.2.0.py:279-289 | "All Books" gets exactly ["ALL"]; a name not in the table raises |
| Gui.ChaptersOfBook | tk.biblesearch.2.0.py:283-289 | each of the 66 books gets "ALL" followed by its chapters 1..n in ascending order |
| Gui.Scope | tk.biblesearch.2.0.py:304-319 | "All Books" leaves the data unchanged; the scope fails with NoSuchBook exactly when the name is not in the table; it succeeds exactly for "All Books", or for a named book when the chapter is "ALL" or every line starting with the abbreviation has a second field; a TooFewFields failure names such a line of the data that has fewer than two fields (the IndexError of `line.split()[1]`) |
| Gui.ScopeExact | tk.biblesearch.2.0.py:305-319 | the scoped lines are a subsequence of the data, in file order; each starts with the abbreviation and, unless the chapter is "ALL", has a second field starting with "chapter:"; every such line is kept |
| Gui.SubseqTrans | tk.biblesearch.2.0.py:310-318 | scoping twice keeps file order |
| Gui.WholeWordHit | tk.biblesearch.2.0.py:322-324 | a line that is the query, in any case, is a hit, and a hit line is at least as long as the query |
| Gui.SubstringHit | tk.biblesearch.2.0.py:367 | the hit test of the unbound `perform_search2`: the empty query hits every line, and a hit line is at least as long as the query |
| Gui.WholeWordIsSubstring | tk.biblesearch.2.0.py:322-324 | every whole-word hit is a substring hit |
| Gui.SubstringNotWholeWord | tk.biblesearch.2.0.py:366-367 | the converse fails: "he" is inside "the" but not a word of it |
| Gui.WholeWordActsOnFewer | tk.biblesearch.2.0.py:322-334 | the lines the whole-word search acts on are a subsequence of those the substring search acts on |
| Gui.Span | tk.biblesearch.2.0.py:325 | a greedy run stops at the first character outside the class |
| Gui.Field | tk.biblesearch.2.0.py:325 | a matched field is a non-empty run of the class followed by the literal after it |
| Gui.RowEnds | tk.biblesearch.2.0.py:325 | a match ends its groups at a space, a colon and a space, in increasing order, with a non-empty text group that runs to the end of the line or a newline |
| Gui.RowEndsShaped | tk.biblesearch.2.0.py:325 | the groups between the match positions are a word run, two digit runs and newline-free text |
| Gui.MatchRow | tk.biblesearch.2.0.py:325 | a match has a non-empty word-character abbreviation, non-empty digit chapter and verse, and non-empty text without a newline |
| Gui.MatchRowOf | tk.biblesearch.2.0.py:325-327 | a well-formed line "a c:v text", optionally followed by a newline, matches with exactly those groups |
| Gui.MatchRowShape | tk.biblesearch.2.0.py:325-327 | a match gives groups of the right classes that put together are the start of the line, followed by the end of the line or a newline |
| Gui.MatchRowAt | tk.biblesearch.2.0.py:325-327 | a line laid out as the groups matches with those groups |
| Gui.Examine | tk.biblesearch.2.0.py:323-334 | only a hit that matches the row pattern acts; it raises exactly when its abbreviation is not in the table; an inserted row carries the line's text group |
| Gui.Collect | tk.biblesearch.2.0.py:322-334 | a search inserts no more rows than there are lines |
| Gui.CollectRowsAre | tk.biblesearch.2.0.py:322-334 | the rows inserted are those of the first acting lines, in order |
| Gui.CollectEnds | tk.biblesearch.2.0.py:322-334 | a search that runs through has a row for every acting line; one that stops does so at the first line that raises, with its exception |
| Gui.CollectRows | tk.biblesearch.2.0.py:322-334 | the search runs through exactly when no acting line raises, and then inserts one row per acting line, in file order |
| Gui.ExamineLine | tk.biblesearch.2.0.py:323-334 | a line acts exactly when it is a hit and matches the row pattern; it raises exactly when its abbreviation is not in the table, and otherwise inserts its groups under that book's full name |
| Gui.PerformSearch | tk.biblesearch.2.0.py:291-334 | a scope that raises ends the search with no rows and that exception |
| Gui.SearchRows | tk.biblesearch.2.0.py:322-334 | over a scope, the rows are one per scoped line that is a hit and matches the row pattern, in file order, each with the line's chapter, verse and text under the full name of its abbreviation; the search runs to the end exactly when every such abbreviation is in the table |
| Gui.GetVerses | tk.biblesearch.2.0.py:379-400 | the chapter's verses are found exactly when the book's name is in the table |
| Gui.GetVersesLines | tk.biblesearch.2.0.py:395-400 | the verses are those of exactly the lines starting with "abbrev chapter:", one per line, in file order |
| Gui.PrefixesExclusive | tk.biblesearch.2.0.py:395 | no line starts with the prefixes of two different colon-free chapters: chapter "1" never picks up chapter "11" |
| Gui.VerseText | tk.biblesearch.2.0.py:397 | the verse text has the plain space as its only whitespace, and is empty for a line of at most two fields |
| Gui.VerseTextOf | tk.biblesearch.2.0.py:397 | the text of "b c:v rest" is the whitespace-separated fields of `rest` joined by single spaces |
| Gui.GetVersesOfBook | tk.biblesearch.2.0.py:390-394 | every one of the 66 books has a verse list for every chapter, possibly empty |
| Popup.Populate | tk.biblesearch.2.0.py:493-515 | the verses are labelled 1..n by position with their texts; a line is highlighted exactly when a non-zero highlight equals its label |
| Popup.PopulateHighlightsOne | tk.biblesearch.2.0.py:506-515 | exactly the verse at position h is highlighted when 1 <= h <= n, and none otherwise |
| Popup.Open | tk.biblesearch.2.0.py:440-488 | a new window is on the given book, chapter and highlight, shows the populated verses, and has both buttons enabled |
| Popup.GoToChapter | tk.biblesearch.2.0.py:402-418 | the window opens only for a specific book and chapter, on them, without highlight; an unknown book name raises |
| Popup.GoToChapterShows | tk.biblesearch.2.0.py:402-418 | going to a chapter of one of the 66 books shows its verses numbered from 1, none highlighted |
| Popup.OpenRow | tk.biblesearch.2.0.py:229-256 | a double-clicked row opens a window exactly when its book and chapter are non-empty and the book's name is in the table; the window is on that book and chapter with the verse number as the highlight |
| Popup.OpenRowHighlights | tk.biblesearch.2.0.py:246-255 | a row whose verse v is within the chapter gets exactly its v-th line highlighted |
| Popup.NextChapter | tk.biblesearch.2.0.py:517-538 | Next keeps the book, clears the highlight, leaves Previous alone and never enables Next |
| Popup.NextInto | tk.biblesearch.2.0.py:529-538 | the chapter becomes the new one whether or not it has verses |
| Popup.PreviousChapter | tk.biblesearch.2.0.py:540-559 | Previous keeps the book, clears the highlight, leaves Next alone and never enables Previous |
| Popup.PreviousInto | tk.biblesearch.2.0.py:552-556 | above chapter 1 the chapter becomes the one before, with both buttons left as they were |
| Popup.PreviousRetreats | tk.biblesearch.2.0.py:552-553 | Previous takes a numbered chapter n > 1 to n - 1, even into a chapter without verses |
| Popup.PreviousShows | tk.biblesearch.2.0.py:552-556 | above chapter 1 of a known book, the header and lines show the chapter before, unhighlighted, with both buttons as they were |
| Popup.NextAdvances | tk.biblesearch.2.0.py:529 | Next advances a numbered chapter n to n + 1, even into a chapter without verses |
| Popup.NextShows | tk.biblesearch.2.0.py:530-538 | with verses, the header and lines show the new chapter unhighlighted; without, they stay and Next is disabled |
| Popup.NextIntoShows | tk.biblesearch.2.0.py:530-538 | the same, once the new chapter is known |
| Popup.PreviousAtFirst | tk.biblesearch.2.0.py:552-559 | at chapter 1 the chapter, header and lines stay and Previous is disabled |
| Popup.PreviousAfterNext | tk.biblesearch.2.0.py:517-559 | from chapter n >= 1 of a known book, Next then Previous shows chapter n again, unhighlighted |
| Popup.Press | tk.biblesearch.2.0.py:517-559 | a press keeps the window's book and never enables a button |
| Popup.PressAll | tk.biblesearch.2.0.py:517-559 | after any presses the window is on its book |
| Popup.PressAllKeeps | tk.biblesearch.2.0.py:517-559 | after any presses the window is on its book, and a disabled button is never enabled again |
| Popup.PressAllDisabled | tk.biblesearch.2.0.py:537-559 | with both buttons disabled, pressing changes nothing |

## Left out

- Reading the text file: the `codecs.open`/`open` calls and their encodings. The corpus is a given `seq<string>` of lines.
- Terminal colours (colorama) and the `textwrap` wrapping at 60 columns. Only the red/dim choice and the wrap flag are modelled.
- The `input()`/`print` loop itself, the help text and the `?` book printout. A turn is a pure function of the command line and the search line.
- Tk widgets: layout, fonts, the tree view, message boxes, window titles and button state rendering. A window is the data its handlers set, and a disabled button is one that does nothing when pressed.
- Repl.Step: the user's regular expression in `search_bible` is a parameter `pattern`, and its compilation (including `re.error` on a bad pattern) is not modelled. The literal case-insensitive pattern is modelled as `Queries.Literal`.
- Text.Lower: `str.lower` and `re.IGNORECASE` are modelled on ASCII letters only. `\w`, `\d` and `\s` are likewise ASCII: letters, digits and `_`; the ten digits; and space, tab, newline, vertical tab, form feed, carriage return and the four separators `\x1c` to `\x1f`.
- Text.ParseNat: `int()` is modelled only on non-empty strings of ASCII digits. Signs, surrounding whitespace and underscores are not accepted, so those chapter strings are treated as the ValueError case.
- Gui.WholeWordHit: `re.escape` is taken to make the query match itself literally, which holds for the escaped query.
- Popup.OpenRow: the leading-digits extraction `re.match(r"^(\d+)", ...)` is modelled as reading the whole verse column, which for every row a search inserts consists of digits only.
- Popup.NextChapter and Popup.PreviousChapter: the verses a Next or Previous shows are those of the chapter window's own book. The parent window's data is passed in as a parameter.

=== FILE: books.dfy ===
/** The `books` dict of the GUI: abbreviation -> [ordinal, chapter count, full
    name], in insertion order, with the sentinel "All" -> [0, 0, "All Books"] first.
    Python looks it up forwards by abbreviation (`books[abbrev]`) and backwards by
    full name (`next(a for a, d in books.items() if d[2] == name)`). */
module Books {
  import opened Options

  datatype Book = Book(abbrev: string, ordinal: nat, chapters: nat, fullName: string)

  /** Number of rows: the sentinel plus the 66 books of the canon. */
  const Size: nat := 67

  /** The full name the book selector shows for "search everything". */
  const AllBooks: string := "All Books"

  /** Row `i` of the dict, in insertion order. */
  function Row(i: nat): Book
    requires i < Size
  {
    match i
    case 0 => Book("All", 0, 0, "All Books")
    case 1 => Book("Ge", 1, 50, "Genesis")
    case 2 => Book("Ex", 2, 40, "Exodus")
    case 3 => Book("Le", 3, 27, "Leviticus")
    case 4 => Book("Nu", 4, 36, "Numbers")
    case 5 => Book("De", 5, 34, "Deuteronomy")
    case 6 => Book("Jos", 6, 24, "Joshua")
    case 7 => Book("Jg", 7, 21, "Judges")
    case 8 => Book("Ru", 8, 4, "Ruth")
    case 9 => Book("1Sa", 9, 31, "1 Samuel")
    case 10 => Book("2Sa", 10, 24, "2 Samuel")
    case 11 => Book("1Ki", 11, 22, "1 Kings")
    case 12 => Book("2Ki", 12, 25, "2 Kings")
    case 13 => Book("1Ch", 13, 29, "1 Chronicles")
    case 14 => Book("2Ch", 14, 36, "2 Chronicles")
    case 15 => Book("Ezr", 15, 10, "Ezra")
    case 16 => Book("Ne", 16, 13, "Nehemiah")
    case 17 => Book("Es", 17, 10, "Esther")
    case 18 => Book("Job", 18, 42, "Job")
    case 19 => Book("Ps", 19, 150, "Psalms")
    case 20 => Book("Pr", 20, 31, "Proverbs")
    case 21 => Book("Ec", 21, 12, "Ecclesiastes")
    case 22 => Book("Song", 22, 8, "Song of Solomon")
    case 23 => Book("Isa", 23, 66, "Isaiah")
    case 24 => Book("Jer", 24, 52, "Jeremiah")
    case 25 => Book("La", 25, 5, "Lamentations")
    case 26 => Book("Eze", 26, 48, "Ezekiel")
    case 27 => Book("Da", 27, 12, "Daniel")
    case 28 => Book("Ho", 28, 14, "Hosea")
    case 29 => Book("Joe", 29, 3, "Joel")
    case 30 => Book("Am", 30, 9, "Amos")
    case 31 => Book("Ob", 31, 1, "Obadiah")
    case 32 => Book("Jon", 32, 4, "Jonah")
    case 33 => Book("Mic", 33, 7, "Micah")
    case 34 => Book("Na", 34, 3, "Nahum")
    case 35 => Book("Hab", 35, 3, "Habakkuk")
    case 36 => Book("Zep", 36, 3, "Zephaniah")
    case 37 => Book("Hag", 37, 2, "Haggai")
    case 38 => Book("Zec", 38, 14, "Zechariah")
    case 39 => Book("Mal", 39, 4, "Malachi")
    case 40 => Book("Mt", 40, 28, "Matthew")
    case 41 => Book("Mr", 41, 16, "Mark")
    case 42 => Book("Lu", 42, 24, "Luke")
    case 43 => Book("Joh", 43, 21, "John")
    case 44 => Book("Ac", 44, 28, "Acts")
    case 45 => Book("Ro", 45, 16, "Romans")
    case 46 => Book("1Co", 46, 16, "1 Corinthians")
    case 47 => Book("2Co", 47, 13, "2 Corinthians")
    case 48 => Book("Ga", 48, 6, "Galatians")
    case 49 => Book("Eph", 49, 6, "Ephesians")
    case 50 => Book("Php", 50, 4, "Philippians")
    case 51 => Book("Col", 51, 4, "Colossians")
    case 52 => Book("1Th", 52, 5, "1 Thessalonians")
    case 53 => Book("2Th", 53, 3, "2 Thessalonians")
    case 54 => Book("1Ti", 54, 6, "1 Timothy")
    case 55 => Book("2Ti", 55, 4, "2 Timothy")
    case 56 => Book("Tit", 56, 3, "Titus")
    case 57 => Book("Phm", 57, 1, "Philemon")
    case 58 => Book("Heb", 58, 13, "Hebrews")
    case 59 => Book("Jas", 59, 5, "James")
    case 60 => Book("1Pe", 60, 5, "1 Peter")
    case 61 => Book("2Pe", 61, 3, "2 Peter")
    case 62 => Book("1Jo", 62, 5, "1 John")
    case 63 => Book("2Jo", 63, 1, "2 John")
    case 64 => Book("3Jo", 64, 1, "3 John")
    case 65 => Book("Jude", 65, 1, "Jude")
    case _ => Book("Re", 66, 22, "Revelation")
  }

  /** The dict's rows as a sequence, in insertion order. */
  function Table(): (t: seq<Book>)
    ensures |t| == Size
  {
    seq(Size, i requires 0 <= i < Size => Row(i))
  }

  /** The first index, from `i` on, whose row passes `test`: the iteration of
      `books.items()` inside `next(...)`. */
  function FindFrom(rows: seq<Book>, i: nat, test: Book -> bool): (r: Option<nat>)
    requires i <= |rows|
    ensures r.Some? ==> i <= r.value < |rows| && test(rows[r.value])
    ensures r.Some? ==> forall j | i <= j < r.value :: !test(rows[j])
    ensures r.None? ==> forall j | i <= j < |rows| :: !test(rows[j])
    decreases |rows| - i
  {
    if i == |rows| then None
    else if test(rows[i]) then Some(i)
    else FindFrom(rows, i + 1, test)
  }

  /** `books[abbrev]`; None where Python raises KeyError. */
  function Lookup(abbrev: string): (r: Option<Book>)
    ensures r.Some? <==> exists k | 0 <= k < Size :: Table()[k].abbrev == abbrev
    ensures r.Some? ==> r.value.abbrev == abbrev && r.value in Table()
  {
    var t := Table();
    match FindFrom(t, 0, (b: Book) => b.abbrev == abbrev)
    case None => None
    case Some(k) => Some(t[k])
  }

  /** The abbreviation of the first row whose full name is `name`; None where
      Python's `next(...)` raises StopIteration. */
  function AbbrevForName(name: string): (r: Option<string>)
    ensures r.Some? <==> exists k | 0 <= k < Size :: Table()[k].fullName == name
    ensures r.Some? ==> exists k | 0 <= k < Size :: Table()[k].fullName == name && Table()[k].abbrev == r.value
  {
    var t := Table();
    match FindFrom(t, 0, (b: Book) => b.fullName == name)
    case None => None
    case Some(k) => Some(t[k].abbrev)
  }

  /** Inverse of the full-name column: the row holding `name`, or -1. */
  ghost function NameIndex(name: string): int {
    match name
    case "All Books" => 0
    case "Genesis" => 1
    case "Exodus" => 2
    case "Leviticus" => 3
    case "Numbers" => 4
    case "Deuteronomy" => 5
    case "Joshua" => 6
    case "Judges" => 7
    case "Ruth" => 8
    case "1 Samuel" => 9
    case "2 Samuel" => 10
    case "1 Kings" => 11
    case "2 Kings" => 12
    case "1 Chronicles" => 13
    case "2 Chronicles" => 14
    case "Ezra" => 15
    case "Nehemiah" => 16
    case "Esther" => 17
    case "Job" => 18
    case "Psalms" => 19
    case "Proverbs" => 20
    case "Ecclesiastes" => 21
    case "Song of Solomon" => 22
    case "Isaiah" => 23
    case "Jeremiah" => 24
    case "Lamentations" => 25
    case "Ezekiel" => 26
    case "Daniel" => 27
    case "Hosea" => 28
    case "Joel" => 29
    case "Amos" => 30
    case "Obadiah" => 31
    case "Jonah" => 32
    case "Micah" => 33
    case "Nahum" => 34
    case "Habakkuk" => 35
    case "Zephaniah" => 36
    case "Haggai" => 37
    case "Zechariah" => 38
    case "Malachi" => 39
    case "Matthew" => 40
    case "Mark" => 41
    case "Luke" => 42
    case "John" => 43
    case "Acts" => 44
    case "Romans" => 45
    case "1 Corinthians" => 46
    case "2 Corinthians" => 47
    case "Galatians" => 48
    case "Ephesians" => 49
    case "Philippians" => 50
    case "Colossians" => 51
    case "1 Thessalonians" => 52
    case "2 Thessalonians" => 53
    case "1 Timothy" => 54
    case "2 Timothy" => 55
    case "Titus" => 56
    case "Philemon" => 57
    case "Hebrews" => 58
    case "James" => 59
    case "1 Peter" => 60
    case "2 Peter" => 61
    case "1 John" => 62
    case "2 John" => 63
    case "3 John" => 64
    case "Jude" => 65
    case "Revelation" => 66
    case _ => -1
  }

  /** Inverse of the abbreviation column: the row holding `abbrev`, or -1. */
  ghost function AbbrevIndex(abbrev: string): int {
    match abbrev
    case "All" => 0
    case "Ge" => 1
    case "Ex" => 2
    case "Le" => 3
    case "Nu" => 4
    case "De" => 5
    case "Jos" => 6
    case "Jg" => 7
    case "Ru" => 8
    case "1Sa" => 9
    case "2Sa" => 10
    case "1Ki" => 11
    case "2Ki" => 12
    case "1Ch" => 13
    case "2Ch" => 14
    case "Ezr" => 15
    case "Ne" => 16
    case "Es" => 17
    case "Job" => 18
    case "Ps" => 19
    case "Pr" => 20
    case "Ec" => 21
    case "Song" => 22
    case "Isa" => 23
    case "Jer" => 24
    case "La" => 25
    case "Eze" => 26
    case "Da" => 27
    case "Ho" => 28
    case "Joe" => 29
    case "Am" => 30
    case "Ob" => 31
    case "Jon" => 32
    case "Mic" => 33
    case "Na" => 34
    case "Hab" => 35
    case "Zep" => 36
    case "Hag" => 37
    case "Zec" => 38
    case "Mal" => 39
    case "Mt" => 40
    case "Mr" => 41
    case "Lu" => 42
    case "Joh" => 43
    case "Ac" => 44
    case "Ro" => 45
    case "1Co" => 46
    case "2Co" => 47
    case "Ga" => 48
    case "Eph" => 49
    case "Php" => 50
    case "Col" => 51
    case "1Th" => 52
    case "2Th" => 53
    case "1Ti" => 54
    case "2Ti" => 55
    case "Tit" => 56
    case "Phm" => 57
    case "Heb" => 58
    case "Jas" => 59
    case "1Pe" => 60
    case "2Pe" => 61
    case "1Jo" => 62
    case "2Jo" => 63
    case "3Jo" => 64
    case "Jude" => 65
    case "Re" => 66
    case _ => -1
  }

  // Each inverse is checked over a few index ranges to keep every proof small;
  // later rows cost more, since the match tries the earlier names first.

  lemma NameColumnInverts1()
    ensures forall i | 0 <= i < 23 :: NameIndex(Row(i).fullName) == i
  {
  }

  lemma NameColumnInverts2()
    ensures forall i | 23 <= i < 45 :: NameIndex(Row(i).fullName) == i
  {
  }

  lemma NameColumnInverts3()
    ensures forall i | 45 <= i < 56 :: NameIndex(Row(i).fullName) == i
  {
  }

  lemma NameColumnInverts4()
    ensures forall i | 56 <= i < 62 :: NameIndex(Row(i).fullName) == i
  {
  }

  lemma NameColumnInverts5()
    ensures forall i | 62 <= i < Size :: NameIndex(Row(i).fullName) == i
  {
  }

  lemma AbbrevColumnInverts1()
    ensures forall i | 0 <= i < 34 :: AbbrevIndex(Row(i).abbrev) == i
  {
  }

  lemma AbbrevColumnInverts2()
    ensures forall i | 34 <= i < 50 :: AbbrevIndex(Row(i).abbrev) == i
  {
  }

  lemma AbbrevColumnInverts3()
    ensures forall i | 50 <= i < Size :: AbbrevIndex(Row(i).abbrev) == i
  {
  }

  /** The sentinel has ordinal 0 and the 66 books have ordinals 1..66 in canon
      order, each once; every book has at least one chapter. */
  lemma Ordinals()
    ensures Table()[0] == Book("All", 0, 0, AllBooks)
    ensures forall i | 1 <= i < Size :: Table()[i].ordinal == i && Table()[i].chapters >= 1
  {
  }

  /** No two rows share an abbreviation or a full name, so both lookups are
      well-defined functions. */
  lemma {:induction false} ColumnsDistinct()
    ensures forall i, j | 0 <= i < j < Size :: Table()[i].abbrev != Table()[j].abbrev
    ensures forall i, j | 0 <= i < j < Size :: Table()[i].fullName != Table()[j].fullName
  {
    NameColumnInverts1();
    NameColumnInverts2();
    NameColumnInverts3();
    NameColumnInverts4();
    NameColumnInverts5();
    AbbrevColumnInverts1();
    AbbrevColumnInverts2();
    AbbrevColumnInverts3();
    forall i, j | 0 <= i < j < Size
      ensures Table()[i].abbrev != Table()[j].abbrev
      ensures Table()[i].fullName != Table()[j].fullName
    {
      assert AbbrevIndex(Row(i).abbrev) == i && AbbrevIndex(Row(j).abbrev) == j;
      assert NameIndex(Row(i).fullName) == i && NameIndex(Row(j).fullName) == j;
    }
  }

  /** Looking a row up by its abbreviation finds that very row. */
  lemma {:induction false} LookupRow(k: nat)
    requires k < Size
    ensures Lookup(Table()[k].abbrev) == Some(Table()[k])
  {
    var t := Table();
    var test := (b: Book) => b.abbrev == t[k].abbrev;
    var r := FindFrom(t, 0, test);
    assert test(t[k]);
    ColumnsDistinct();
    assert r == Some(k);
  }

  /** The reverse lookup of a row's full name gives that row's abbreviation,
      and looking that abbreviation up returns the row: the two directions are
      inverse to each other. */
  lemma {:induction false} NameRoundTrip(k: nat)
    requires k < Size
    ensures AbbrevForName(Table()[k].fullName) == Some(Table()[k].abbrev)
    ensures Lookup(AbbrevForName(Table()[k].fullName).value) == Some(Table()[k])
  {
    var t := Table();
    var test := (b: Book) => b.fullName == t[k].fullName;
    var r := FindFrom(t, 0, test);
    assert test(t[k]);
    ColumnsDistinct();
    assert r == Some(k);
    LookupRow(k);
  }
}

=== FILE: classifier.dfy ===
/** The colouring rule of `print_verse`: a verse is printed red when its text
    contains, in any letter case, one of seven marker phrases tried in a fixed
    order; otherwise it is printed dim. */
module Classifier {
  import opened Options
  import opened Text

  datatype Style = Red | Dim

  /** The marker phrases, in the order the `if`/`elif` chain tries them. */
  const Markers: seq<string> := [
    "JESUS SAI", "JESUS ASK", "JESUS LOOK", "JESUS BEH", "JESUS BEG", "JESUS PRE",
    "THIS IS MY BODY"
  ]

  /** `re.search(m, text, re.IGNORECASE)` for a marker `m`, which holds no
      regex metacharacters. */
  predicate HasMarker(text: string, m: string) {
    Contains(Lower(text), Lower(m))
  }

  /** The index of the first marker, from `i` on, that the text contains. */
  function FirstMarker(text: string, i: nat): (r: Option<nat>)
    requires i <= |Markers|
    ensures r.Some? ==> i <= r.value < |Markers| && HasMarker(text, Markers[r.value])
    ensures r.Some? ==> forall j | i <= j < r.value :: !HasMarker(text, Markers[j])
    ensures r.None? <==> forall j | i <= j < |Markers| :: !HasMarker(text, Markers[j])
    decreases |Markers| - i
  {
    if i == |Markers| then None
    else if HasMarker(text, Markers[i]) then Some(i)
    else FirstMarker(text, i + 1)
  }

  /** The branch of the chain that fires: red for the first marker found, dim
      when none is. */
  function Classify(text: string): (s: Style)
    ensures s == Red <==> exists j | 0 <= j < |Markers| :: HasMarker(text, Markers[j])
  {
    match FirstMarker(text, 0)
    case Some(_) => Red
    case None => Dim
  }

  lemma {:induction false} LowerAppend(a: string, b: string)
    ensures Lower(a + b) == Lower(a) + Lower(b)
  {
    assert |Lower(a + b)| == |Lower(a) + Lower(b)|;
  }

  /** A phrase found in a text is still found once more text surrounds it. */
  lemma ContainsInContext(pre: string, s: string, post: string, sub: string)
    requires Contains(s, sub)
    ensures Contains(pre + s + post, sub)
  {
    var i :| 0 <= i <= |s| - |sub| && OccursAt(s, sub, i);
    var t := pre + s + post;
    assert t[|pre| + i..|pre| + i + |sub|] == s[i..i + |sub|];
    assert OccursAt(t, sub, |pre| + i);
  }

  /** A red verse stays red with more text around it: the colour depends only
      on the presence of a marker, never on what surrounds it. */
  lemma {:induction false} RedInContext(pre: string, text: string, post: string)
    requires Classify(text) == Red
    ensures Classify(pre + text + post) == Red
  {
    var j :| 0 <= j < |Markers| && HasMarker(text, Markers[j]);
    LowerAppend(pre, text);
    LowerAppend(pre + text, post);
    ContainsInContext(Lower(pre), Lower(text), Lower(post), Lower(Markers[j]));
    assert HasMarker(pre + text + post, Markers[j]);
  }

  /** The colour does not depend on letter case. */
  lemma {:induction false} ClassifyIgnoresCase(text: string)
    ensures Classify(Lower(text)) == Classify(text)
  {
    LowerIdempotent(text);
    assert forall j | 0 <= j < |Markers| :: HasMarker(Lower(text), Markers[j]) == HasMarker(text, Markers[j]);
  }

  /** Concretely: a verse reporting that Jesus said something is red, and a
      text without any marker, like "Amen.", is dim. */
  lemma MarkerExamples()
    ensures Classify("and Jesus said unto them") == Red
    ensures Classify("Amen.") == Dim
  {
    SaidIsRed();
    AmenIsDim();
  }

  /** "Jesus sai" carries the first marker, and the rest of the verse
      surrounds it. */
  lemma SaidIsRed()
    ensures Classify("and Jesus said unto them") == Red
  {
    var m := "Jesus sai";
    assert Lower(m) == Lower(Markers[0]);
    assert OccursAt(Lower(m), Lower(Markers[0]), 0);
    assert HasMarker(m, Markers[0]);
    RedInContext("and ", m, "d unto them");
    assert "and " + m + "d unto them" == "and Jesus said unto them";
  }

  /** Every marker is longer than "Amen.", so none occurs in it. */
  lemma AmenIsDim()
    ensures Classify("Amen.") == Dim
  {
    forall j | 0 <= j < |Markers| ensures !HasMarker("Amen.", Markers[j]) {
      assert |Lower(Markers[j])| > |Lower("Amen.")|;
    }
  }
}

=== FILE: gui.dfy ===
/** The data behind the search window of the Tk program: the chapter
    drop-down, the book and chapter scope of a search, the two ways a line can
    be a hit, the result rows, and the verses of one chapter. The program
    keeps the raw lines of the text file; here they are a `seq<string>`. */
module Gui {
  import opened Options
  import Seqs
  import opened Text
  import opened Books
  import Queries

  /** The chapter drop-down's sentinel for "every chapter". */
  const AllChaptersLabel: string := "ALL"

  /** An entry of the chapter drop-down: "ALL" or a chapter number. */
  datatype ChapterChoice = AllChapters | Numbered(n: nat)

  /** `["ALL"] + list(range(1, n + 1))`. */
  function Choices(n: nat): (r: seq<ChapterChoice>)
    ensures |r| == n + 1 && r[0] == AllChapters
    ensures forall i | 1 <= i <= n :: r[i] == Numbered(i)
  {
    [AllChapters] + seq(n, i requires 0 <= i < n => Numbered(i + 1))
  }

  /** `update_chapters`: the chapter drop-down for the selected book. None is
      the StopIteration raised for a name that is not in the table. */
  function UpdateChapters(name: string): (r: Option<seq<ChapterChoice>>)
    ensures name == AllBooks ==> r == Some([AllChapters])
    ensures r.None? <==> forall k | 0 <= k < Size :: Table()[k].fullName != name
  {
    Ordinals();
    if name == AllBooks then Some([AllChapters])
    else match AbbrevForName(name)
      case None => None
      case Some(a) =>
        match Lookup(a)
        case None => None
        case Some(b) => Some(Choices(b.chapters))
  }

  /** Every one of the 66 books offers "ALL" and then its chapters 1 to n in
      ascending order. */
  lemma ChaptersOfBook(k: nat)
    requires 1 <= k < Size
    ensures UpdateChapters(Table()[k].fullName) == Some(Choices(Table()[k].chapters))
  {
    Ordinals();
    ColumnsDistinct();
    assert Table()[k].fullName != Table()[0].fullName;
    NameRoundTrip(k);
  }

  /** Why a search failed part-way: `next(...)` found no book of that name,
      `line.split()[1]` had no second field, or `books[abbrev]` had no entry. */
  datatype Failure =
    | NoSuchBook(name: string)
    | TooFewFields(line: string)
    | UnknownAbbrev(abbrev: string)

  /** The chapter test of the scope: the second field starts with "c:". */
  predicate InChapter(chapter: string, line: string) {
    |Words(line)| >= 2 && StartsWith(Words(line)[1], chapter + ":")
  }

  function InBookTest(abbrev: string): string -> bool {
    (line: string) => StartsWith(line, abbrev)
  }

  function InChapterTest(chapter: string): string -> bool {
    (line: string) => InChapter(chapter, line)
  }

  function ShortTest(): string -> bool {
    (line: string) => |Words(line)| < 2
  }

  /** Every line of the book has two fields exactly when every line of the
      data that starts with the abbreviation has. */
  lemma InBookLong(data: seq<string>, a: string)
    ensures var inBook := Seqs.Filter(data, InBookTest(a));
      (forall j | 0 <= j < |inBook| :: |Words(inBook[j])| >= 2) <==>
      (forall i | 0 <= i < |data| :: StartsWith(data[i], a) ==> |Words(data[i])| >= 2)
  {
    var inBook := Seqs.Filter(data, InBookTest(a));
    if forall j | 0 <= j < |inBook| :: |Words(inBook[j])| >= 2 {
      forall i | 0 <= i < |data| && StartsWith(data[i], a) ensures |Words(data[i])| >= 2 {
        assert InBookTest(a)(data[i]);
        var j :| 0 <= j < |inBook| && inBook[j] == data[i];
      }
    }
    if forall i | 0 <= i < |data| :: StartsWith(data[i], a) ==> |Words(data[i])| >= 2 {
      forall j | 0 <= j < |inBook| ensures |Words(inBook[j])| >= 2 {
        assert inBook[j] in data && InBookTest(a)(inBook[j]);
      }
    }
  }

  /** The book and chapter scope of `perform_search`: every line for
      "All Books"; otherwise the lines starting with the book's abbreviation
      and, unless the chapter is "ALL", whose second field starts with the
      chapter and a colon. The chapter test fails on the first line in the
      book with fewer than two fields. */
  function Scope(data: seq<string>, bookFull: string, chapter: string): (r: Result<seq<string>, Failure>)
    ensures bookFull == AllBooks ==> r == Ok(data)
    ensures r == Err(NoSuchBook(bookFull)) <==> forall k | 0 <= k < Size :: Table()[k].fullName != bookFull
    ensures r.Ok? <==>
      || bookFull == AllBooks
      || (&& AbbrevForName(bookFull).Some?
          && (|| chapter == AllChaptersLabel
              || forall i | 0 <= i < |data| :: StartsWith(data[i], AbbrevForName(bookFull).value) ==> |Words(data[i])| >= 2))
    ensures r.Err? && r.error.TooFewFields? ==>
      && AbbrevForName(bookFull).Some?
      && r.error.line in data
      && StartsWith(r.error.line, AbbrevForName(bookFull).value)
      && |Words(r.error.line)| < 2
  {
    Ordinals();
    if bookFull == AllBooks then Ok(data)
    else match AbbrevForName(bookFull)
      case None => Err(NoSuchBook(bookFull))
      case Some(a) =>
        var inBook := Seqs.Filter(data, InBookTest(a));
        InBookLong(data, a);
        if chapter == AllChaptersLabel then Ok(inBook)
        else match Seqs.FirstWhere(inBook, ShortTest())
          case Some(k) => Err(TooFewFields(inBook[k]))
          case None => Ok(Seqs.Filter(inBook, InChapterTest(chapter)))
  }

  /** A scope keeps a subsequence of the data, in file order; every line it
      keeps is in the book and the chapter, and every such line is kept. */
  lemma ScopeExact(data: seq<string>, bookFull: string, chapter: string)
    requires bookFull != AllBooks && Scope(data, bookFull, chapter).Ok?
    ensures AbbrevForName(bookFull).Some?
    ensures var lines := Scope(data, bookFull, chapter).value;
      var a := AbbrevForName(bookFull).value;
      var wanted := (l: string) => StartsWith(l, a) && (chapter == AllChaptersLabel || InChapter(chapter, l));
      && Seqs.IsSubseq(lines, data)
      && (forall i | 0 <= i < |lines| :: wanted(lines[i]))
      && (forall i | 0 <= i < |data| :: wanted(data[i]) ==> data[i] in lines)
  {
    var a := AbbrevForName(bookFull).value;
    var inBook := Seqs.Filter(data, InBookTest(a));
    Seqs.FilterIsSubseq(data, InBookTest(a));
    if chapter != AllChaptersLabel {
      var lines := Seqs.Filter(inBook, InChapterTest(chapter));
      Seqs.FilterIsSubseq(inBook, InChapterTest(chapter));
      SubseqTrans(lines, inBook, data);
      forall i | 0 <= i < |lines| ensures StartsWith(lines[i], a) {
        assert lines[i] in inBook;
        var j :| 0 <= j < |inBook| && inBook[j] == lines[i];
      }
      forall i | 0 <= i < |data| && StartsWith(data[i], a) && InChapter(chapter, data[i])
        ensures data[i] in lines
      {
        assert InBookTest(a)(data[i]);
        var j :| 0 <= j < |inBook| && inBook[j] == data[i];
        assert InChapterTest(chapter)(inBook[j]);
      }
    }
  }

  lemma {:induction false} SubseqTrans<T>(a: seq<T>, b: seq<T>, c: seq<T>)
    requires Seqs.IsSubseq(a, b) && Seqs.IsSubseq(b, c)
    ensures Seqs.IsSubseq(a, c)
    decreases |c|
  {
    if |a| > 0 {
      if |b| > 0 && b[0] == c[0] && Seqs.IsSubseq(b[1..], c[1..]) {
        if a[0] == b[0] && Seqs.IsSubseq(a[1..], b[1..]) {
          SubseqTrans(a[1..], b[1..], c[1..]);
        } else {
          SubseqTrans(a, b[1..], c[1..]);
        }
      } else {
        SubseqTrans(a, b, c[1..]);
      }
    }
  }

  /** The whole-word pattern `(?:\W|^)` + re.escape(q) + `(?:\W|$)`, searched
      case-insensitively for the lower-cased query `q`, matching at `i`: `q`
      sits there in the lower-cased line, after the line start or a non-word
      character, and before the line end or a non-word character. */
  predicate WholeWordAt(q: string, line: string, i: int) {
    && OccursAt(Lower(line), q, i)
    && (i == 0 || !IsWordChar(line[i - 1]))
    && (i + |q| == |line| || !IsWordChar(line[i + |q|]))
  }

  /** The hit test of `perform_search`. */
  predicate WholeWordHit(q: string, line: string)
    ensures Lower(line) == q ==> WholeWordHit(q, line)
    ensures WholeWordHit(q, line) ==> |q| <= |line|
  {
    assert Lower(line) == q ==> WholeWordAt(q, line, 0);
    exists i | 0 <= i <= |line| - |q| :: WholeWordAt(q, line, i)
  }

  /** The hit test of `perform_search2`: `q in line.lower()`. */
  predicate SubstringHit(q: string, line: string)
    ensures |q| == 0 ==> SubstringHit(q, line)
    ensures SubstringHit(q, line) ==> |q| <= |line|
  {
    assert OccursAt(Lower(line), [], 0);
    Contains(Lower(line), q)
  }

  /** Every whole-word hit is a substring hit. */
  lemma WholeWordIsSubstring(q: string, line: string)
    requires WholeWordHit(q, line)
    ensures SubstringHit(q, line)
  {
  }

  /** The converse fails: "he" is inside "the" but is not a word of it. */
  lemma SubstringNotWholeWord()
    ensures SubstringHit("he", "the") && !WholeWordHit("he", "the")
  {
    assert OccursAt(Lower("the"), "he", 1);
    assert !WholeWordAt("he", "the", 0) by {
      assert Lower("the")[0] == 't';
    }
    assert !WholeWordAt("he", "the", 1) by {
      assert IsWordChar("the"[0]);
    }
  }

  /** The longest run of characters passing `p` from `i` on ends at `r`: a
      greedy `p+` stops there. */
  function Span(s: string, p: char -> bool, i: nat): (r: nat)
    requires i <= |s|
    ensures i <= r <= |s|
    ensures forall k | i <= k < r :: p(s[k])
    ensures r < |s| ==> !p(s[r])
    decreases |s| - i
  {
    if i == |s| || !p(s[i]) then i else Span(s, p, i + 1)
  }

  predicate NotNewline(c: char) {
    c != '\n'
  }

  /** The groups of a result line. */
  datatype Parts = Parts(abbrev: string, chapter: string, verse: string, text: string)

  /** A non-empty greedy run `p+` from `i`, followed by the literal `stop`:
      the index of that literal. */
  function Field(s: string, p: char -> bool, i: nat, stop: char): (r: Option<nat>)
    requires i <= |s|
    ensures r.Some? ==> i < r.value < |s| && s[r.value] == stop
    ensures r.Some? ==> forall k | i <= k < r.value :: p(s[k])
  {
    var j := Span(s, p, i);
    if j == i || j == |s| || s[j] != stop then None else Some(j)
  }

  /** Where the groups of `re.match(r"(\w+) (\d+):(\d+) (.+)", line)` end:
      the space after the word run, the colon, the space after the verse
      digits, and the end of the text. */
  datatype Ends = Ends(w: nat, c: nat, v: nat, t: nat)

  /** The match positions. A word run, a digit run and a digit run must each
      be followed by the literal that comes next, which they cannot contain,
      so each group is the longest run there; the last group is the longest
      run of non-newline characters. */
  function RowEnds(line: string): (r: Option<Ends>)
    ensures r.Some? ==> r.value.w < r.value.c < r.value.v && r.value.v + 1 < r.value.t <= |line|
    ensures r.Some? ==> line[r.value.w] == ' ' && line[r.value.c] == ':' && line[r.value.v] == ' '
    ensures r.Some? ==> r.value.t == |line| || line[r.value.t] == '\n'
  {
    match Field(line, IsWordChar, 0, ' ')
    case None => None
    case Some(w) =>
      match Field(line, IsDigit, w + 1, ':')
      case None => None
      case Some(c) =>
        match Field(line, IsDigit, c + 1, ' ')
        case None => None
        case Some(v) =>
          var t := Span(line, NotNewline, v + 1);
          if t == v + 1 then None
          else Some(Ends(w, c, v, t))
  }

  /** The groups between the match positions have the classes of the pattern. */
  lemma RowEndsShaped(line: string)
    requires RowEnds(line).Some?
    ensures var e := RowEnds(line).value;
      RowShaped(Groups(line, e.w, e.c, e.v, e.t))
  {
  }

  /** `re.match(r"(\w+) (\d+):(\d+) (.+)", line)`: the groups between the
      match positions. */
  function MatchRow(line: string): (r: Option<Parts>)
    ensures r.Some? ==> RowShaped(r.value)
  {
    match RowEnds(line)
    case None => None
    case Some(e) =>
      RowEndsShaped(line);
      Some(Groups(line, e.w, e.c, e.v, e.t))
  }

  /** The four groups of a match whose fields end at `w`, `c`, `v` and `t`. */
  function Groups(line: string, w: nat, c: nat, v: nat, t: nat): Parts
    requires w < c < v < t <= |line|
  {
    Parts(line[..w], line[w + 1..c], line[c + 1..v], line[v + 1..t])
  }

  /** The parts of a well-formed result line. */
  predicate RowShaped(p: Parts) {
    && |p.abbrev| > 0 && (forall k | 0 <= k < |p.abbrev| :: IsWordChar(p.abbrev[k]))
    && |p.chapter| > 0 && AllDigits(p.chapter)
    && |p.verse| > 0 && AllDigits(p.verse)
    && |p.text| > 0 && (forall k | 0 <= k < |p.text| :: NotNewline(p.text[k]))
  }

  function RowLine(p: Parts): string {
    p.abbrev + " " + p.chapter + ":" + p.verse + " " + p.text
  }

  /** A run that passes `p` up to `j`, where `p` fails or the string ends, is
      the span from `i`. */
  lemma SpanEnds(s: string, p: char -> bool, i: nat, j: nat)
    requires i <= j <= |s|
    requires forall k | i <= k < j :: p(s[k])
    requires j == |s| || !p(s[j])
    ensures Span(s, p, i) == j
  {
  }

  /** A run of `s` from `i` to `j` that is all `p` and ends where `p` fails
      or the string ends is the span from `i`. */
  lemma SpanOver(s: string, p: char -> bool, i: nat, j: nat, run: string)
    requires i <= j <= |s| && s[i..j] == run
    requires forall k | 0 <= k < |run| :: p(run[k])
    requires j == |s| || !p(s[j])
    ensures Span(s, p, i) == j
  {
    forall k | i <= k < j ensures p(s[k]) {
      assert s[k] == run[k - i];
    }
    SpanEnds(s, p, i, j);
  }

  /** Where the parts of a result line sit in it. */
  lemma RowLayout(p: Parts, tail: string)
    ensures var line := RowLine(p) + tail;
      var w := |p.abbrev|;
      var c := w + 1 + |p.chapter|;
      var v := c + 1 + |p.verse|;
      var t := v + 1 + |p.text|;
      && t <= |line|
      && line[..w] == p.abbrev && line[w] == ' '
      && line[w + 1..c] == p.chapter && line[c] == ':'
      && line[c + 1..v] == p.verse && line[v] == ' '
      && line[v + 1..t] == p.text
      && line[t..] == tail
  {
    var line := RowLine(p) + tail;
    assert line == p.abbrev + [' '] + p.chapter + [':'] + p.verse + [' '] + p.text + tail;
  }

  /** A non-empty run of `p` from `i` to `j`, followed by a `stop` that
      fails `p`, is the field from `i`. */
  lemma FieldOver(s: string, p: char -> bool, i: nat, j: nat, run: string, stop: char)
    requires i < j < |s| && s[i..j] == run && s[j] == stop && !p(stop)
    requires forall k | 0 <= k < |run| :: p(run[k])
    ensures Field(s, p, i, stop) == Some(j)
  {
    SpanOver(s, p, i, j, run);
  }

  /** A line laid out as the parts of a result row, in place. */
  lemma MatchRowAt(line: string, p: Parts, w: nat, c: nat, v: nat, t: nat)
    requires RowShaped(p)
    requires w < c < v < t <= |line|
    requires line[..w] == p.abbrev && line[w] == ' '
    requires line[w + 1..c] == p.chapter && line[c] == ':'
    requires line[c + 1..v] == p.verse && line[v] == ' '
    requires line[v + 1..t] == p.text
    requires t == |line| || line[t] == '\n'
    ensures MatchRow(line) == Some(p)
  {
    assert line[0..w] == line[..w];
    FieldOver(line, IsWordChar, 0, w, p.abbrev, ' ');
    FieldOver(line, IsDigit, w + 1, c, p.chapter, ':');
    FieldOver(line, IsDigit, c + 1, v, p.verse, ' ');
    SpanOver(line, NotNewline, v + 1, t, p.text);
    RowEndsFrom(line, w, c, v, t);
    assert Groups(line, w, c, v, t) == p;
  }

  /** Fields found at `w`, `c` and `v` and a non-empty text run up to `t`
      are the match positions. */
  lemma RowEndsFrom(line: string, w: nat, c: nat, v: nat, t: nat)
    requires w < c < v && v + 1 < t <= |line|
    requires Field(line, IsWordChar, 0, ' ') == Some(w)
    requires Field(line, IsDigit, w + 1, ':') == Some(c)
    requires Field(line, IsDigit, c + 1, ' ') == Some(v)
    requires Span(line, NotNewline, v + 1) == t
    ensures RowEnds(line) == Some(Ends(w, c, v, t))
  {
  }

  /** A well-formed result line, possibly followed by a newline and more,
      matches with exactly its parts. */
  lemma MatchRowOf(p: Parts, tail: string)
    requires RowShaped(p)
    requires |tail| == 0 || tail[0] == '\n'
    ensures MatchRow(RowLine(p) + tail) == Some(p)
  {
    var line := RowLine(p) + tail;
    var w := |p.abbrev|;
    var c := w + 1 + |p.chapter|;
    var v := c + 1 + |p.verse|;
    var t := v + 1 + |p.text|;
    RowLayout(p, tail);
    assert t < |line| ==> line[t] == line[t..][0];
    MatchRowAt(line, p, w, c, v, t);
  }

  /** A slice splits around one of its characters. */
  lemma SliceAround(s: string, j: nat, k: nat)
    requires j < k <= |s|
    ensures s[..k] == s[..j] + [s[j]] + s[j + 1..k]
  {
  }

  /** A match gives back the line it came from: the line is the groups put
      together, then the rest of the line, which is empty or starts a new
      line. */
  lemma MatchRowShape(line: string)
    requires MatchRow(line).Some?
    ensures var p := MatchRow(line).value;
      && RowShaped(p)
      && StartsWith(line, RowLine(p))
      && (|line| == |RowLine(p)| || line[|RowLine(p)|] == '\n')
  {
    var p := MatchRow(line).value;
    var e := RowEnds(line).value;
    var w, c, v, t := e.w, e.c, e.v, e.t;
    assert p == Parts(line[..w], line[w + 1..c], line[c + 1..v], line[v + 1..t]);
    SliceAround(line, w, c);
    SliceAround(line, c, v);
    SliceAround(line, v, t);
    assert line[..t] == RowLine(p);
  }

  /** A row of the results table: the book's full name, chapter, verse, text. */
  datatype ResultRow = ResultRow(book: string, chapter: string, verse: string, text: string)

  /** The rows inserted so far, and how the search ended: `Listed` when it ran
      to the end, `Stopped` when an exception ended it part-way. */
  datatype Outcome =
    | Listed(rows: seq<ResultRow>)
    | Stopped(rows: seq<ResultRow>, failure: Failure)

  /** What one line of the scoped data does to the results table. */
  datatype Effect =
    | Skip
    | Insert(row: ResultRow)
    | Raise(failure: Failure)

  /** The body of the search loop for one line: a hit that matches the row
      pattern inserts a row with the full name of its abbreviation, and an
      abbreviation missing from the table raises KeyError. */
  function Examine(hit: string -> bool): (r: string -> Effect)
    ensures forall line :: !r(line).Skip? ==> hit(line) && MatchRow(line).Some?
    ensures forall line :: r(line).Raise? <==>
      hit(line) && MatchRow(line).Some? && Lookup(MatchRow(line).value.abbrev).None?
    ensures forall line :: r(line).Insert? ==> r(line).row.text == MatchRow(line).value.text
  {
    (line: string) =>
      if !hit(line) then Skip
      else match MatchRow(line)
        case None => Skip
        case Some(p) =>
          match Lookup(p.abbrev)
          case None => Raise(UnknownAbbrev(p.abbrev))
          case Some(b) => Insert(ResultRow(b.fullName, p.chapter, p.verse, p.text))
  }

  function Prepend(row: ResultRow, o: Outcome): Outcome {
    match o
    case Listed(rows) => Listed([row] + rows)
    case Stopped(rows, f) => Stopped([row] + rows, f)
  }

  /** The search loop: the effect of each line in turn, up to the first
      exception. */
  function Collect(lines: seq<string>, examine: string -> Effect): (out: Outcome)
    ensures |out.rows| <= |lines|
    decreases |lines|
  {
    if |lines| == 0 then Listed([])
    else match examine(lines[0])
      case Skip => Collect(lines[1..], examine)
      case Raise(f) => Stopped([], f)
      case Insert(row) => Prepend(row, Collect(lines[1..], examine))
  }

  /** The lines that do something: those not skipped. */
  function Acts(examine: string -> Effect): string -> bool {
    (line: string) => !examine(line).Skip?
  }

  /** The rows inserted are those of the first acting lines, in order. */
  lemma {:induction false} CollectRowsAre(lines: seq<string>, examine: string -> Effect)
    ensures var acting := Seqs.Filter(lines, Acts(examine));
      var rows := Collect(lines, examine).rows;
      && |rows| <= |acting|
      && forall i | 0 <= i < |rows| :: examine(acting[i]) == Insert(rows[i])
    decreases |lines|
  {
    if |lines| > 0 {
      CollectRowsAre(lines[1..], examine);
      if Acts(examine)(lines[0]) {
        var acting := Seqs.Filter(lines, Acts(examine));
        var rest := Seqs.Filter(lines[1..], Acts(examine));
        assert acting == [lines[0]] + rest;
        if examine(lines[0]).Insert? {
          var rows := Collect(lines, examine).rows;
          assert rows == [examine(lines[0]).row] + Collect(lines[1..], examine).rows;
          forall i | 1 <= i < |rows| ensures examine(acting[i]) == Insert(rows[i]) {
            assert acting[i] == rest[i - 1];
          }
        }
      }
    }
  }

  /** A search that runs to the end has a row for every acting line; one that
      stops does so at the first line that raises, with its exception. */
  lemma {:induction false} CollectEnds(lines: seq<string>, examine: string -> Effect)
    ensures var acting := Seqs.Filter(lines, Acts(examine));
      var out := Collect(lines, examine);
      && (out.Listed? ==> |out.rows| == |acting|)
      && (out.Stopped? ==>
            && |out.rows| < |acting|
            && examine(acting[|out.rows|]) == Raise(out.failure))
    decreases |lines|
  {
    if |lines| > 0 {
      CollectEnds(lines[1..], examine);
      if Acts(examine)(lines[0]) {
        var rest := Seqs.Filter(lines[1..], Acts(examine));
        assert Seqs.Filter(lines, Acts(examine)) == [lines[0]] + rest;
      }
    }
  }

  /** The search runs to the end exactly when no acting line raises, and then
      inserts one row per acting line, in order. */
  lemma CollectRows(lines: seq<string>, examine: string -> Effect)
    ensures var acting := Seqs.Filter(lines, Acts(examine));
      var out := Collect(lines, examine);
      && (out.Listed? <==> forall i | 0 <= i < |acting| :: examine(acting[i]).Insert?)
      && (out.Listed? ==> |out.rows| == |acting| && forall i | 0 <= i < |acting| :: examine(acting[i]) == Insert(out.rows[i]))
  {
    CollectRowsAre(lines, examine);
    CollectEnds(lines, examine);
  }

  /** A line acts exactly when it is a hit and matches the row pattern; it
      inserts the row of its parts under the full name of its abbreviation,
      or raises when the abbreviation is not in the table. */
  lemma ExamineLine(hit: string -> bool, line: string)
    ensures Acts(Examine(hit))(line) <==> hit(line) && MatchRow(line).Some?
    ensures Acts(Examine(hit))(line) ==>
      var p := MatchRow(line).value;
      && (Examine(hit)(line).Raise? <==> forall k | 0 <= k < Size :: Table()[k].abbrev != p.abbrev)
      && (Examine(hit)(line).Insert? ==>
            exists k | 0 <= k < Size :: Table()[k].abbrev == p.abbrev
              && Examine(hit)(line).row == ResultRow(Table()[k].fullName, p.chapter, p.verse, p.text))
  {
  }

  /** The hit test of the chosen search for the lower-cased query `q`. */
  function HitTest(q: string, wholeWord: bool): string -> bool {
    if wholeWord then (l: string) => WholeWordHit(q, l) else (l: string) => SubstringHit(q, l)
  }

  /** `perform_search` (whole word) and `perform_search2` (substring): the
      query is lower-cased, the data scoped, and the search loop run over the
      scoped lines. */
  function PerformSearch(data: seq<string>, search: string, bookFull: string, chapter: string,
                         wholeWord: bool): (out: Outcome)
    ensures Scope(data, bookFull, chapter).Err? ==> out == Stopped([], Scope(data, bookFull, chapter).error)
  {
    match Scope(data, bookFull, chapter)
    case Err(f) => Stopped([], f)
    case Ok(lines) => Collect(lines, Examine(HitTest(Lower(search), wholeWord)))
  }

  /** A search over a scope lists, in file order, one row per scoped line
      that is a hit and matches the row pattern: the row holds the line's
      chapter, verse and text under the full name of its abbreviation. It
      runs to the end exactly when every such abbreviation is in the table. */
  lemma SearchRows(data: seq<string>, search: string, bookFull: string, chapter: string, wholeWord: bool)
    requires Scope(data, bookFull, chapter).Ok?
    ensures var hit := HitTest(Lower(search), wholeWord);
      var shown := Seqs.Filter(Scope(data, bookFull, chapter).value, Acts(Examine(hit)));
      var out := PerformSearch(data, search, bookFull, chapter, wholeWord);
      && (forall i | 0 <= i < |shown| :: hit(shown[i]) && MatchRow(shown[i]).Some?)
      && (out.Listed? <==> forall i | 0 <= i < |shown| :: Lookup(MatchRow(shown[i]).value.abbrev).Some?)
      && (out.Listed? ==> |out.rows| == |shown| && forall i | 0 <= i < |shown| ::
            var p := MatchRow(shown[i]).value;
            out.rows[i] == ResultRow(Lookup(p.abbrev).value.fullName, p.chapter, p.verse, p.text))
  {
    var hit := HitTest(Lower(search), wholeWord);
    var lines := Scope(data, bookFull, chapter).value;
    var shown := Seqs.Filter(lines, Acts(Examine(hit)));
    CollectRows(lines, Examine(hit));
    forall i | 0 <= i < |shown|
      ensures hit(shown[i]) && MatchRow(shown[i]).Some?
      ensures Examine(hit)(shown[i]).Insert? <==> Lookup(MatchRow(shown[i]).value.abbrev).Some?
      ensures Examine(hit)(shown[i]).Insert? ==>
        var p := MatchRow(shown[i]).value;
        Examine(hit)(shown[i]).row == ResultRow(Lookup(p.abbrev).value.fullName, p.chapter, p.verse, p.text)
    {
      assert Acts(Examine(hit))(shown[i]);
    }
  }

  /** The lines the whole-word search acts on are among those the substring
      search acts on, in the same order. */
  lemma WholeWordActsOnFewer(lines: seq<string>, q: string)
    ensures Seqs.IsSubseq(Seqs.Filter(lines, Acts(Examine(HitTest(q, true)))),
                          Seqs.Filter(lines, Acts(Examine(HitTest(q, false)))))
  {
    var whole := Acts(Examine(HitTest(q, true)));
    var sub := Acts(Examine(HitTest(q, false)));
    forall i | 0 <= i < |lines| ensures whole(lines[i]) ==> sub(lines[i]) {
      if WholeWordHit(q, lines[i]) {
        WholeWordIsSubstring(q, lines[i]);
      }
    }
    Seqs.FilterMonotone(lines, whole, sub);
  }

  /** `f"{abbrev} {chapter}:"`. */
  function ChapterPrefix(abbrev: string, chapter: string): string {
    abbrev + " " + chapter + ":"
  }

  function PrefixTest(prefix: string): string -> bool {
    (line: string) => StartsWith(line, prefix)
  }

  /** `" ".join(line.split()[2:])`: the fields from the third on. */
  function VerseText(line: string): (r: string)
    ensures SingleSpaced(r)
    ensures |Words(line)| <= 2 ==> r == ""
  {
    var ws := Words(line);
    var parts := if |ws| >= 2 then ws[2..] else [];
    JoinSingleSpaces(parts);
    Join(parts, " ")
  }

  /** `get_verses_for_chapter`: the text of every line that starts with
      "abbrev chapter:", in file order. None is the StopIteration raised for a
      name that is not in the table. */
  function GetVerses(data: seq<string>, bookFull: string, chapter: string): (r: Option<seq<string>>)
    ensures r.None? <==> forall k | 0 <= k < Size :: Table()[k].fullName != bookFull
  {
    match AbbrevForName(bookFull)
    case None => None
    case Some(a) =>
      var lines := Seqs.Filter(data, PrefixTest(ChapterPrefix(a, chapter)));
      Some(seq(|lines|, i requires 0 <= i < |lines| => VerseText(lines[i])))
  }

  /** The verses are those of the lines with the chapter's prefix, one per
      line and in file order. */
  lemma GetVersesLines(data: seq<string>, bookFull: string, chapter: string)
    requires GetVerses(data, bookFull, chapter).Some?
    ensures var a := AbbrevForName(bookFull).value;
      var lines := Seqs.Filter(data, PrefixTest(ChapterPrefix(a, chapter)));
      var vs := GetVerses(data, bookFull, chapter).value;
      && Seqs.IsSubseq(lines, data)
      && |vs| == |lines|
      && (forall i | 0 <= i < |lines| :: StartsWith(lines[i], ChapterPrefix(a, chapter)) && vs[i] == VerseText(lines[i]))
      && (forall i | 0 <= i < |data| :: StartsWith(data[i], ChapterPrefix(a, chapter)) ==> data[i] in lines)
  {
    var a := AbbrevForName(bookFull).value;
    Seqs.FilterIsSubseq(data, PrefixTest(ChapterPrefix(a, chapter)));
  }

  /** Chapter prefixes exclude each other: with colon-free chapters, no line
      starts with the prefixes of two different chapters, so chapter "1"
      never picks up a line of chapter "11". */
  lemma PrefixesExclusive(abbrev: string, c1: string, c2: string, line: string)
    requires ':' !in c1 && ':' !in c2 && c1 != c2
    ensures !(StartsWith(line, ChapterPrefix(abbrev, c1)) && StartsWith(line, ChapterPrefix(abbrev, c2)))
  {
    if StartsWith(line, ChapterPrefix(abbrev, c1)) && StartsWith(line, ChapterPrefix(abbrev, c2)) {
      var rest := line[|abbrev| + 1..];
      assert StartsWith(rest, c1 + ":") by {
        assert rest[..|c1| + 1] == line[..|ChapterPrefix(abbrev, c1)|][|abbrev| + 1..];
      }
      assert StartsWith(rest, c2 + ":") by {
        assert rest[..|c2| + 1] == line[..|ChapterPrefix(abbrev, c2)|][|abbrev| + 1..];
      }
      Queries.ColonEndsField(c1, c2, rest);
    }
  }

  /** The text of a line "b c:v rest" is the fields of `rest` joined by single
      spaces. */
  lemma VerseTextOf(b: string, cv: string, rest: string)
    requires |b| > 0 && |cv| > 0 && NoSpace(b) && NoSpace(cv)
    ensures VerseText(b + " " + cv + " " + rest) == Join(Words(rest), " ")
  {
    var line := b + " " + cv + " " + rest;
    SplitLine(b, cv, rest);
    var tail := Split(rest, IsSpace);
    WordsOfLine(b, cv, tail, Split(line, IsSpace));
  }

  /** The non-empty fields of `[b, cv] + tail` are `b`, `cv` and the non-empty
      fields of `tail`. */
  lemma WordsOfLine(b: string, cv: string, tail: seq<string>, fields: seq<string>)
    requires |b| > 0 && |cv| > 0 && fields == [b, cv] + tail
    ensures Seqs.Filter(fields, NonEmpty) == [b, cv] + Seqs.Filter(tail, NonEmpty)
  {
    assert fields[1..] == [cv] + tail;
    assert fields[1..][1..] == tail;
  }

  /** Every one of the 66 books has verses for every chapter string, possibly
      none: the lookup by full name succeeds. */
  lemma GetVersesOfBook(data: seq<string>, k: nat, chapter: string)
    requires k < Size
    ensures GetVerses(data, Table()[k].fullName, chapter).Some?
  {
  }
}

=== FILE: loader.dfy ===
/** The REPL's load loop: every line of the corpus becomes one `bible_dict` entry.
    Each line is split at every single whitespace character; the first field is
    the book, the second is split at ':' into chapter and verse, and the
    remaining fields, joined with single spaces, are the text. The key is
    "<book> <chapter>:<verse>". The loop has no guard: a line without a second
    field or without a ':' in it raises IndexError and ends the program. */
module Loader {
  import opened Options
  import opened Text
  import opened Store

  /** The unguarded index that raises IndexError on a malformed line. */
  datatype Fault =
    | NoSecondField  // `fields[1]`: the line holds no whitespace character
    | NoColon        // `cv[1]`: the second field holds no ':'

  /** The load stopped at line `line` (0-based) for `fault`. */
  datatype LoadError = LoadError(line: nat, fault: Fault)

  predicate IsColon(c: char) {
    c == ':'
  }

  /** One pass of the loop body: the entry the line stores, or why it raises. */
  function ParseLine(line: string): (r: Result<Entry, Fault>)
    ensures r.Ok? <==> |Split(line, IsSpace)| >= 2 && ':' in Split(line, IsSpace)[1]
    ensures r.Ok? ==> StartsWith(r.value.key, Split(line, IsSpace)[0] + " ")
  {
    var fields := Split(line, IsSpace);
    if |fields| < 2 then Err(NoSecondField)
    else
      var cv := Split(fields[1], IsColon);
      SplitSingle(fields[1], IsColon);
      if |cv| < 2 then Err(NoColon)
      else Ok(Entry(fields[0] + " " + cv[0] + ":" + cv[1], Join(fields[2..], " ")))
  }

  /** A line raises at `fields[1]` exactly when it holds no whitespace, and at
      `cv[1]` exactly when its second field holds no ':'. */
  lemma ParseLineFaults(line: string)
    ensures ParseLine(line) == Err(NoSecondField) <==> NoSpace(line)
    ensures ParseLine(line) == Err(NoColon) <==>
      !NoSpace(line) && |Split(line, IsSpace)| >= 2 && ':' !in Split(line, IsSpace)[1]
  {
    var fields := Split(line, IsSpace);
    SplitSingle(line, IsSpace);
    if |fields| >= 2 {
      SplitSingle(fields[1], IsColon);
    }
  }

  /** The parsing half of the loop: the entry of every line, or the first line
      that raises. */
  function ParseAll(lines: seq<string>): (r: Result<seq<Entry>, LoadError>)
    ensures r.Ok? ==> |r.value| == |lines|
    ensures r.Err? ==> r.error.line < |lines|
    decreases |lines|
  {
    if |lines| == 0 then Ok([])
    else
      match ParseAll(lines[..|lines| - 1])
      case Err(e) => Err(e)
      case Ok(es) =>
        match ParseLine(lines[|lines| - 1])
        case Err(f) => Err(LoadError(|lines| - 1, f))
        case Ok(e) => Ok(es + [e])
  }

  /** The whole loop. The program dies on the first line that raises, so the
      dict built before it is never used: parsing every line first and then
      assigning the entries in order gives the same outcome. */
  function Load(lines: seq<string>): (r: Result<Dict, LoadError>)
    ensures r.Ok? ==> UniqueKeys(r.value)
    ensures r.Ok? <==> forall i | 0 <= i < |lines| :: ParseLine(lines[i]).Ok?
    ensures r.Err? ==>
      && r.error.line < |lines|
      && ParseLine(lines[r.error.line]) == Err(r.error.fault)
      && forall j | 0 <= j < r.error.line :: ParseLine(lines[j]).Ok?
  {
    ParseAllLines(lines);
    match ParseAll(lines)
    case Err(e) => Err(e)
    case Ok(es) => Ok(Assign(es))
  }

  /** The second field "c:v", possibly followed by more ":"-separated parts,
      splits at ':' into the chapter `c` and the verse `v`. */
  lemma {:induction false} SplitChapterVerse(c: string, v: string, tail: string)
    requires ':' !in c && ':' !in v
    requires |tail| == 0 || tail[0] == ':'
    ensures var cv := Split(c + ":" + v + tail, IsColon); |cv| >= 2 && cv[0] == c && cv[1] == v
  {
    assert forall i | 0 <= i < |c| :: !IsColon(c[i]) by {
      forall i | 0 <= i < |c| ensures !IsColon(c[i]) {
        assert c[i] in c;
      }
    }
    assert forall i | 0 <= i < |v| :: !IsColon(v[i]) by {
      forall i | 0 <= i < |v| ensures !IsColon(v[i]) {
        assert v[i] in v;
      }
    }
    assert c + ":" + v + tail == c + [':'] + (v + tail);
    SplitField(c, ':', v + tail, IsColon);
    if |tail| == 0 {
      assert v + tail == v;
      SplitNoSep(v, IsColon);
    } else {
      assert v + tail == v + [':'] + tail[1..];
      SplitField(v, ':', tail[1..], IsColon);
    }
  }

  /** A line whose second field is "c:v" followed by nothing or by more
      ":"-separated parts is stored under "b c:v": the verse part is cut at the
      second colon. The text is the rest of the line split at every whitespace
      character and joined with single spaces. */
  lemma {:induction false} ParseWellFormed(b: string, c: string, v: string, tail: string, rest: string)
    requires NoSpace(b) && NoSpace(c) && NoSpace(v) && NoSpace(tail)
    requires ':' !in c && ':' !in v
    requires |tail| == 0 || tail[0] == ':'
    ensures ParseLine(b + " " + c + ":" + v + tail + " " + rest)
      == Ok(Entry(b + " " + c + ":" + v, Join(Split(rest, IsSpace), " ")))
  {
    var cvt := c + ":" + v + tail;
    assert NoSpace(cvt) by {
      forall i | 0 <= i < |cvt| ensures !IsSpace(cvt[i]) {
        if i < |c| {
          assert cvt[i] == c[i];
        } else if i == |c| {
        } else if i < |c| + 1 + |v| {
          assert cvt[i] == v[i - |c| - 1];
        } else {
          assert cvt[i] == tail[i - |c| - 1 - |v|];
        }
      }
    }
    SplitLine(b, cvt, rest);
    assert b + " " + c + ":" + v + tail + " " + rest == b + " " + cvt + " " + rest;
    var fields := [b, cvt] + Split(rest, IsSpace);
    assert fields[2..] == Split(rest, IsSpace);
    SplitChapterVerse(c, v, tail);
  }

  /** A line that stores text with no whitespace other than single spaces
      keeps that text verbatim. */
  lemma {:induction false} ParsePlainText(b: string, c: string, v: string, text: string)
    requires NoSpace(b) && NoSpace(c) && NoSpace(v)
    requires ':' !in c && ':' !in v
    requires forall i | 0 <= i < |text| :: IsSpace(text[i]) ==> text[i] == ' '
    ensures ParseLine(b + " " + c + ":" + v + " " + text) == Ok(Entry(b + " " + c + ":" + v, text))
  {
    ParseWellFormed(b, c, v, "", text);
    assert b + " " + c + ":" + v + "" + " " + text == b + " " + c + ":" + v + " " + text;
    JoinSplit(text, IsSpace, ' ');
  }

  /** The load fails exactly when some line fails to parse, and then it
      reports the first such line and its fault; otherwise every line yields
      its own entry, in order. */
  lemma {:induction false} ParseAllLines(lines: seq<string>)
    ensures ParseAll(lines).Ok? <==> forall i | 0 <= i < |lines| :: ParseLine(lines[i]).Ok?
    ensures ParseAll(lines).Ok? ==>
      var es := ParseAll(lines).value;
      |es| == |lines| && forall i | 0 <= i < |lines| :: ParseLine(lines[i]) == Ok(es[i])
    ensures ParseAll(lines).Err? ==>
      var e := ParseAll(lines).error;
      && e.line < |lines|
      && ParseLine(lines[e.line]) == Err(e.fault)
      && forall j | 0 <= j < e.line :: ParseLine(lines[j]).Ok?
    decreases |lines|
  {
    if |lines| > 0 {
      var n := |lines| - 1;
      var prefix := lines[..n];
      ParseAllLines(prefix);
      assert forall i | 0 <= i < n :: prefix[i] == lines[i];
      match ParseAll(prefix)
      case Err(e) =>
        assert ParseAll(lines) == Err(e);
      case Ok(es) =>
        match ParseLine(lines[n])
        case Err(f) =>
          assert ParseAll(lines) == Err(LoadError(n, f));
        case Ok(e) =>
          assert ParseAll(lines) == Ok(es + [e]);
          assert forall i | 0 <= i < n :: (es + [e])[i] == es[i];
    }
  }

  /** Last write wins over the file: after a successful load, the text under
      `k` is that of the last line whose key is `k`. */
  lemma LoadLastWriteWins(lines: seq<string>, k: string)
    requires Load(lines).Ok?
    ensures ParseAll(lines).Ok?
    ensures Get(Load(lines).value, k) == LastText(ParseAll(lines).value, k)
  {
    AssignLastWriteWins(ParseAll(lines).value, k);
  }

  /** The loaded dict holds exactly the keys of the parsed lines. */
  lemma LoadKeys(lines: seq<string>, x: string)
    requires Load(lines).Ok?
    ensures ParseAll(lines).Ok?
    ensures x in Keys(Load(lines).value) <==> x in Keys(ParseAll(lines).value)
  {
    AssignKeys(ParseAll(lines).value, x);
  }

  /** A repeated key keeps the position of its first line: the dict lists its
      keys in the order of their first lines. */
  lemma LoadKeepsFirstPosition(lines: seq<string>)
    requires Load(lines).Ok?
    ensures ParseAll(lines).Ok?
    ensures var lineKeys := Keys(ParseAll(lines).value); var ks := Keys(Load(lines).value);
      forall i, j | 0 <= i < j < |ks| :: Pos(lineKeys, ks[i]) < Pos(lineKeys, ks[j])
  {
    var es := ParseAll(lines).value;
    assert Load(lines).value == Assign(es);
    AssignKeepsFirstPosition(es);
  }
}

=== FILE: options.dfy ===
/** Failure-carrying wrappers shared by the whole model. Python signals a missing
    value with None and a failed step with an exception; the model returns these
    values instead. */
module Options {

  /** A value that may be absent (Python's None, or `next(...)` finding nothing). */
  datatype Option<+T> = None | Some(value: T)

  /** A step that either produces a value or stops with the reason it stopped. */
  datatype Result<+T, +E> = Ok(value: T) | Err(error: E)
}

=== FILE: popup.dfy ===
/** The chapter window of the Tk program: the numbered, possibly highlighted
    verses it shows, how it is opened, and its Next and Previous buttons.
    Widgets are left out; the window is the data its handlers set. */
module Popup {
  import opened Options
  import opened Text
  import opened Books
  import Gui

  /** One verse as shown: its label number, its text, and whether it has the
      highlight background. */
  datatype VerseLine = VerseLine(number: nat, text: string, highlighted: bool)

  /** `if self.highlight_verse and idx == self.highlight_verse`: None and 0
      are both false in Python. */
  predicate Marks(highlight: Option<nat>, idx: nat) {
    highlight.Some? && highlight.value != 0 && idx == highlight.value
  }

  /** `populate_verses`: the verses labelled 1, 2, ... by their position in
      the list (not by any verse number in the data), the one whose label
      equals the highlight set apart. */
  function Populate(verses: seq<string>, highlight: Option<nat>): (r: seq<VerseLine>)
    ensures |r| == |verses|
    ensures forall i | 0 <= i < |r| :: r[i].number == i + 1 && r[i].text == verses[i]
    ensures forall i | 0 <= i < |r| :: r[i].highlighted <==> Marks(highlight, i + 1)
  {
    seq(|verses|, i requires 0 <= i < |verses| => VerseLine(i + 1, verses[i], Marks(highlight, i + 1)))
  }

  /** The positions of the highlighted lines. */
  function HighlightedPositions(lines: seq<VerseLine>): set<nat> {
    set i: nat | i < |lines| && lines[i].highlighted
  }

  /** At most one verse is highlighted: exactly the one at position h - 1
      when the highlight h is between 1 and the number of verses, and none
      otherwise (no highlight, 0, or past the end). */
  lemma PopulateHighlightsOne(verses: seq<string>, highlight: Option<nat>)
    ensures HighlightedPositions(Populate(verses, highlight)) ==
      if highlight.Some? && 1 <= highlight.value <= |verses| then {highlight.value - 1} else {}
  {
    var r := Populate(verses, highlight);
    if highlight.Some? && 1 <= highlight.value <= |verses| {
      var h := highlight.value - 1;
      assert r[h].highlighted;
      assert h in HighlightedPositions(r);
    }
  }

  /** The chapter window: the book's full name and chapter string it is on,
      the verse to highlight, the header text, the verses shown, and whether
      each button is enabled. */
  datatype Window = Window(
    book: string,
    chapter: string,
    highlight: Option<nat>,
    header: string,
    lines: seq<VerseLine>,
    nextEnabled: bool,
    prevEnabled: bool)

  /** `f"{self.book} {self.chapter}"`. */
  function Header(book: string, chapter: string): string {
    book + " " + chapter
  }

  /** `ChapterPopup.__init__`: titled with the book and chapter, the verses
      populated, both buttons enabled. */
  function Open(book: string, chapter: string, verses: seq<string>, highlight: Option<nat>): (w: Window)
    ensures w.book == book && w.chapter == chapter && w.highlight == highlight
    ensures w.nextEnabled && w.prevEnabled
    ensures w.lines == Populate(verses, highlight)
  {
    Window(book, chapter, highlight, Header(book, chapter), Populate(verses, highlight), true, true)
  }

  /** What "Go to chapter" does. */
  datatype GoTo =
    | PleaseSelect
    | UnknownBook
    | Opened(window: Window)

  /** `go_to_chapter`: a specific book and chapter must be selected; then the
      window opens on that chapter's verses with nothing highlighted.
      UnknownBook is the StopIteration of a name that is not in the table. */
  function GoToChapter(data: seq<string>, book: string, chapter: string): (g: GoTo)
    ensures g == PleaseSelect <==> book == AllBooks || chapter == Gui.AllChaptersLabel
    ensures g == UnknownBook <==> g != PleaseSelect && forall k | 0 <= k < Size :: Table()[k].fullName != book
    ensures g.Opened? ==> g.window.book == book && g.window.chapter == chapter && g.window.highlight == None
  {
    if book == AllBooks || chapter == Gui.AllChaptersLabel then PleaseSelect
    else match Gui.GetVerses(data, book, chapter)
      case None => UnknownBook
      case Some(vs) => Opened(Open(book, chapter, vs, None))
  }

  /** Going to a chapter of one of the 66 books shows its verses in file
      order, numbered from 1, with no highlight. */
  lemma GoToChapterShows(data: seq<string>, k: nat, chapter: string)
    requires 1 <= k < Size && chapter != Gui.AllChaptersLabel
    ensures var g := GoToChapter(data, Table()[k].fullName, chapter);
      && g.Opened?
      && g.window.lines == Populate(Gui.GetVerses(data, Table()[k].fullName, chapter).value, None)
      && HighlightedPositions(g.window.lines) == {}
  {
    Ordinals();
    ColumnsDistinct();
    assert Table()[k].fullName != Table()[0].fullName;
    Gui.GetVersesOfBook(data, k, chapter);
    PopulateHighlightsOne(Gui.GetVerses(data, Table()[k].fullName, chapter).value, None);
  }

  /** `on_tree_item_double_click` for a row of the results table: the window
      opens on the row's chapter with the row's verse highlighted. None is
      the StopIteration of a book name that is not in the table. The verse
      column of a row holds only digits, so its leading digits are all of it. */
  function OpenRow(data: seq<string>, row: Gui.ResultRow): (r: Option<Window>)
    ensures r.Some? <==> |row.book| > 0 && |row.chapter| > 0
                         && exists k | 0 <= k < Size :: Table()[k].fullName == row.book
    ensures r.Some? ==> r.value.book == row.book && r.value.chapter == row.chapter
    ensures r.Some? ==> r.value.highlight == ParseNat(row.verse)
  {
    if |row.book| > 0 && |row.chapter| > 0 then
      match Gui.GetVerses(data, row.book, row.chapter)
      case None => None
      case Some(vs) => Some(Open(row.book, row.chapter, vs, ParseNat(row.verse)))
    else None
  }

  /** A double-clicked row whose verse number v is within the chapter gets
      exactly the v-th line highlighted. */
  lemma OpenRowHighlights(data: seq<string>, row: Gui.ResultRow, v: nat)
    requires OpenRow(data, row).Some?
    requires row.verse == Decimal(v)
    requires 1 <= v <= |OpenRow(data, row).value.lines|
    ensures HighlightedPositions(OpenRow(data, row).value.lines) == {v - 1}
  {
    ParseDecimal(v);
    var vs := Gui.GetVerses(data, row.book, row.chapter).value;
    PopulateHighlightsOne(vs, Some(v));
  }

  /** `next_chapter`. The highlight is cleared first; `int(self.chapter)`
      raises for a chapter that is not a number, leaving only that. Otherwise
      the chapter becomes the next number whether or not it has verses; the
      header and verses follow only when it has some, and an empty chapter
      disables Next instead. */
  function NextChapter(data: seq<string>, w: Window): (r: Window)
    ensures r.book == w.book && r.highlight == None
    ensures r.prevEnabled == w.prevEnabled
    ensures r.nextEnabled ==> w.nextEnabled
  {
    match ParseNat(w.chapter)
    case None => w.(highlight := None)
    case Some(n) => NextInto(data, w, Decimal(n + 1))
  }

  /** The rest of `next_chapter` once the new chapter `c` is known. */
  function NextInto(data: seq<string>, w: Window, c: string): (r: Window)
    ensures r.book == w.book && r.highlight == None && r.chapter == c
    ensures r.prevEnabled == w.prevEnabled
    ensures r.nextEnabled ==> w.nextEnabled
  {
    var moved := w.(highlight := None, chapter := c);
    match Gui.GetVerses(data, w.book, c)
    case None => moved
    case Some(vs) =>
      if |vs| > 0 then moved.(header := Header(w.book, c), lines := Populate(vs, None))
      else moved.(nextEnabled := false)
  }

  /** `previous_chapter`. The highlight is cleared first; above chapter 1 the
      chapter goes down by one and its verses are shown even when there are
      none; at chapter 1 (or 0) nothing moves and Previous is disabled. */
  function PreviousChapter(data: seq<string>, w: Window): (r: Window)
    ensures r.book == w.book && r.highlight == None
    ensures r.nextEnabled == w.nextEnabled
    ensures r.prevEnabled ==> w.prevEnabled
  {
    match ParseNat(w.chapter)
    case None => w.(highlight := None)
    case Some(n) =>
      if n > 1 then PreviousInto(data, w, Decimal(n - 1))
      else w.(highlight := None, prevEnabled := false)
  }

  /** The rest of `previous_chapter` once the new chapter `c` is known. */
  function PreviousInto(data: seq<string>, w: Window, c: string): (r: Window)
    ensures r.book == w.book && r.highlight == None && r.chapter == c
    ensures r.nextEnabled == w.nextEnabled && r.prevEnabled == w.prevEnabled
  {
    var moved := w.(highlight := None, chapter := c);
    match Gui.GetVerses(data, w.book, c)
    case None => moved
    case Some(vs) => moved.(header := Header(w.book, c), lines := Populate(vs, None))
  }

  /** Previous from a numbered chapter above 1 goes down by one, even into a
      chapter with no verses. */
  lemma PreviousRetreats(data: seq<string>, w: Window, n: nat)
    requires ParseNat(w.chapter) == Some(n) && n > 1
    ensures ParseNat(PreviousChapter(data, w).chapter) == Some(n - 1)
  {
    ParseDecimal(n - 1);
  }

  /** Previous on a chapter above 1 of a book in the table shows the new
      chapter's verses unhighlighted, and leaves both buttons as they were. */
  lemma PreviousShows(data: seq<string>, w: Window, n: nat)
    requires ParseNat(w.chapter) == Some(n) && n > 1
    requires Gui.GetVerses(data, w.book, Decimal(n - 1)).Some?
    ensures var r := PreviousChapter(data, w);
      && r.header == Header(w.book, Decimal(n - 1))
      && r.lines == Populate(Gui.GetVerses(data, w.book, Decimal(n - 1)).value, None)
      && r.nextEnabled == w.nextEnabled && r.prevEnabled == w.prevEnabled
  {
    assert PreviousChapter(data, w) == PreviousInto(data, w, Decimal(n - 1));
  }

  /** Next always advances a numbered chapter by one, even into a chapter
      with no verses. */
  lemma NextAdvances(data: seq<string>, w: Window, n: nat)
    requires ParseNat(w.chapter) == Some(n)
    ensures ParseNat(NextChapter(data, w).chapter) == Some(n + 1)
  {
    ParseDecimal(n + 1);
  }

  /** Next on a chapter of a book in the table: with verses, the header and
      lines show the new chapter unhighlighted and Next stays as it was;
      without, the header and lines stay and Next is disabled. */
  lemma NextShows(data: seq<string>, w: Window, n: nat)
    requires ParseNat(w.chapter) == Some(n)
    requires Gui.GetVerses(data, w.book, Decimal(n + 1)).Some?
    ensures var vs := Gui.GetVerses(data, w.book, Decimal(n + 1)).value;
      var r := NextChapter(data, w);
      && (|vs| > 0 ==> r.header == Header(w.book, Decimal(n + 1)) && r.lines == Populate(vs, None)
                       && r.nextEnabled == w.nextEnabled)
      && (|vs| == 0 ==> r.header == w.header && r.lines == w.lines && !r.nextEnabled)
  {
    NextChapterInto(data, w, n);
    NextIntoShows(data, w, Decimal(n + 1));
  }

  /** On a numbered chapter, Next goes on to the chapter written as `n + 1`. */
  lemma NextChapterInto(data: seq<string>, w: Window, n: nat)
    requires ParseNat(w.chapter) == Some(n)
    ensures NextChapter(data, w) == NextInto(data, w, Decimal(n + 1))
  {
    match ParseNat(w.chapter)
    case Some(k) =>
      assert k == n;
  }

  lemma NextIntoShows(data: seq<string>, w: Window, c: string)
    requires Gui.GetVerses(data, w.book, c).Some?
    ensures var vs := Gui.GetVerses(data, w.book, c).value;
      var r := NextInto(data, w, c);
      && (|vs| > 0 ==> r.header == Header(w.book, c) && r.lines == Populate(vs, None)
                       && r.nextEnabled == w.nextEnabled)
      && (|vs| == 0 ==> r.header == w.header && r.lines == w.lines && !r.nextEnabled)
  {
  }

  /** Previous at chapter 1 keeps the chapter, header and verses, and
      disables Previous. */
  lemma PreviousAtFirst(data: seq<string>, w: Window, n: nat)
    requires ParseNat(w.chapter) == Some(n) && n <= 1
    ensures var r := PreviousChapter(data, w);
      r.chapter == w.chapter && r.header == w.header && r.lines == w.lines && !r.prevEnabled
  {
  }

  /** Previous after Next comes back: from a numbered chapter n >= 1 of a
      book in the table, the window is on chapter n again (written without
      leading zeros), showing its verses unhighlighted. */
  lemma PreviousAfterNext(data: seq<string>, w: Window, n: nat)
    requires ParseNat(w.chapter) == Some(n) && n >= 1
    requires AbbrevForName(w.book).Some?
    ensures var r := PreviousChapter(data, NextChapter(data, w));
      && r.chapter == Decimal(n)
      && Gui.GetVerses(data, w.book, Decimal(n)).Some?
      && r.header == Header(w.book, Decimal(n))
      && r.lines == Populate(Gui.GetVerses(data, w.book, Decimal(n)).value, None)
  {
    NextAdvances(data, w, n);
    var c := Decimal(n + 1);
    assert Gui.GetVerses(data, w.book, c).Some?;
    assert Gui.GetVerses(data, w.book, Decimal(n)).Some?;
  }

  /** The two buttons; a disabled button does nothing when pressed. */
  datatype Button = Next | Previous

  function Press(data: seq<string>, w: Window, b: Button): (r: Window)
    ensures r.book == w.book
    ensures r.nextEnabled ==> w.nextEnabled
    ensures r.prevEnabled ==> w.prevEnabled
  {
    match b
    case Next => if w.nextEnabled then NextChapter(data, w) else w
    case Previous => if w.prevEnabled then PreviousChapter(data, w) else w
  }

  /** Pressing the buttons in turn. */
  function PressAll(data: seq<string>, w: Window, presses: seq<Button>): (r: Window)
    ensures r.book == w.book
    decreases |presses|
  {
    if |presses| == 0 then w else PressAll(data, Press(data, w, presses[0]), presses[1..])
  }

  /** Whatever is pressed, the window stays on its book, and a disabled
      button is never enabled again: neither button re-enables the other
      one, even when Next leaves chapter 1 after Previous was disabled
      there. */
  lemma {:induction false} PressAllKeeps(data: seq<string>, w: Window, presses: seq<Button>)
    ensures var r := PressAll(data, w, presses);
      && r.book == w.book
      && (r.nextEnabled ==> w.nextEnabled)
      && (r.prevEnabled ==> w.prevEnabled)
    decreases |presses|
  {
    if |presses| > 0 {
      PressAllKeeps(data, Press(data, w, presses[0]), presses[1..]);
    }
  }

  /** With both buttons disabled, pressing does nothing at all. */
  lemma {:induction false} PressAllDisabled(data: seq<string>, w: Window, presses: seq<Button>)
    requires !w.nextEnabled && !w.prevEnabled
    ensures PressAll(data, w, presses) == w
    decreases |presses|
  {
    if |presses| > 0 {
      PressAllDisabled(data, w, presses[1..]);
    }
  }
}

=== FILE: queries.dfy ===
/** The REPL's queries over the loaded dict: `search_bible` (entries whose text
    the search pattern finds), `search_books` (keys of one chapter) and the
    exact `key in bible_dict` lookup. */
module Queries {
  import opened Options
  import Seqs
  import opened Text
  import opened Store

  /** The entries whose text passes `matches`. */
  function TextTest(matches: string -> bool): Entry -> bool {
    (e: Entry) => matches(e.text)
  }

  /** The keys, in dict order, of the entries whose text passes `matches`:
      what `search_bible` returns for the compiled pattern `matches`. */
  function MatchingKeys(d: Dict, matches: string -> bool): (r: seq<string>)
    ensures |r| <= |d|
    ensures forall i | 0 <= i < |r| :: exists j | 0 <= j < |d| :: d[j].key == r[i] && matches(d[j].text)
  {
    Keys(Seqs.Filter(d, TextTest(matches)))
  }

  lemma {:induction false} KeysAppend(a: Dict, b: Dict)
    ensures Keys(a + b) == Keys(a) + Keys(b)
  {
    var l, r := Keys(a + b), Keys(a) + Keys(b);
    assert |l| == |r|;
    forall i | 0 <= i < |l| ensures l[i] == r[i] {
      if i < |a| {
        assert l[i] == a[i].key;
      } else {
        assert l[i] == b[i - |a|].key;
      }
    }
  }

  /** One more entry adds its key to the filtered keys exactly when it passes. */
  lemma KeysFilterSnoc(d: Dict, e: Entry, p: Entry -> bool)
    ensures Keys(Seqs.Filter(d + [e], p)) == Keys(Seqs.Filter(d, p)) + (if p(e) then [e.key] else [])
  {
    var f := Seqs.Filter(d, p);
    Seqs.FilterSnoc(d, e, p);
    if p(e) {
      assert Seqs.Filter(d + [e], p) == f + [e];
      KeysAppend(f, [e]);
    } else {
      assert Seqs.Filter(d + [e], p) == f + [] == f;
    }
  }

  /** The same, one prefix of a dict to the next. */
  lemma KeysFilterPrefix(d: Dict, i: nat, p: Entry -> bool)
    requires i < |d|
    ensures Keys(Seqs.Filter(d[..i + 1], p)) == Keys(Seqs.Filter(d[..i], p)) + (if p(d[i]) then [d[i].key] else [])
  {
    assert d[..i + 1] == d[..i] + [d[i]];
    KeysFilterSnoc(d[..i], d[i], p);
  }

  /** `search_bible`: walks the dict's items in order, appending the key of
      every entry whose text the pattern finds. */
  method SearchBible(d: Dict, matches: string -> bool) returns (keys: seq<string>)
    ensures keys == MatchingKeys(d, matches)
    ensures |keys| <= |d|
  {
    var p := TextTest(matches);
    keys := [];
    var i := 0;
    while i < |d|
      invariant 0 <= i <= |d|
      invariant keys == Keys(Seqs.Filter(d[..i], p))
    {
      KeysFilterPrefix(d, i, p);
      if matches(d[i].text) {
        keys := keys + [d[i].key];
      }
      i := i + 1;
    }
    assert d[..i] == d;
  }

  lemma {:induction false} KeysSubseq(a: Dict, b: Dict)
    requires Seqs.IsSubseq(a, b)
    ensures Seqs.IsSubseq(Keys(a), Keys(b))
    decreases |b|
  {
    if |a| > 0 {
      assert Keys(b)[1..] == Keys(b[1..]);
      assert Keys(a)[1..] == Keys(a[1..]);
      if a[0] == b[0] && Seqs.IsSubseq(a[1..], b[1..]) {
        KeysSubseq(a[1..], b[1..]);
      } else {
        KeysSubseq(a, b[1..]);
      }
    }
  }

  /** `search_bible` keeps the dict's order and, on a dict, lists no key twice. */
  lemma MatchingKeysOrdered(d: Dict, matches: string -> bool)
    requires UniqueKeys(d)
    ensures Seqs.IsSubseq(MatchingKeys(d, matches), Keys(d))
    ensures Seqs.Distinct(MatchingKeys(d, matches))
  {
    var p := TextTest(matches);
    var f := Seqs.Filter(d, p);
    Seqs.FilterIsSubseq(d, p);
    KeysSubseq(f, d);
    Seqs.SubseqDistinct(Keys(f), Keys(d));
  }

  /** An entry that passes has its key among the filtered keys. */
  lemma FilteredKeyIf(d: Dict, p: Entry -> bool, i: nat)
    requires i < |d| && p(d[i])
    ensures d[i].key in Keys(Seqs.Filter(d, p))
  {
    var f := Seqs.Filter(d, p);
    assert d[i] in f;
    var j :| 0 <= j < |f| && f[j] == d[i];
    assert Keys(f)[j] == d[i].key;
  }

  /** With distinct keys, an entry whose key is among the filtered keys passes. */
  lemma FilteredKeyOnlyIf(d: Dict, p: Entry -> bool, i: nat)
    requires UniqueKeys(d)
    requires i < |d| && d[i].key in Keys(Seqs.Filter(d, p))
    ensures p(d[i])
  {
    var f := Seqs.Filter(d, p);
    var j :| 0 <= j < |f| && Keys(f)[j] == d[i].key;
    var e := f[j];
    assert e in d && p(e);
    var m :| 0 <= m < |d| && d[m] == e;
    assert Keys(d)[m] == Keys(d)[i];
    Seqs.DistinctIndex(Keys(d), m, i);
  }

  /** On a dict, `search_bible` returns the key of an entry exactly when the
      pattern finds the entry's text. */
  lemma MatchingKeysExact(d: Dict, matches: string -> bool, i: nat)
    requires UniqueKeys(d)
    requires i < |d|
    ensures d[i].key in MatchingKeys(d, matches) <==> matches(d[i].text)
  {
    var p := TextTest(matches);
    assert MatchingKeys(d, matches) == Keys(Seqs.Filter(d, p));
    if matches(d[i].text) {
      FilteredKeyIf(d, p, i);
    }
    if d[i].key in Keys(Seqs.Filter(d, p)) {
      FilteredKeyOnlyIf(d, p, i);
    }
  }

  /** The case-insensitive literal pattern: `re.search(q, text, re.IGNORECASE)`
      for a query without regex metacharacters. */
  function Literal(q: string): (r: string -> bool)
    ensures r(q)
    ensures forall text :: r(Lower(text)) == r(text)
    ensures forall text :: r(text) ==> |q| <= |text|
    ensures forall pre, post :: r(pre + q + post)
    ensures forall text :: r(text) <==> exists i, j :: 0 <= i <= j <= |text| && Lower(text[i..j]) == Lower(q)
  {
    LowerIdempotentAll();
    forall text ensures Contains(Lower(text), Lower(q)) <==>
      exists i, j :: 0 <= i <= j <= |text| && Lower(text[i..j]) == Lower(q)
    {
      ContainsLowered(text, q);
    }
    forall pre, post ensures Contains(Lower(pre + q + post), Lower(q)) {
      LowerContainsInContext(pre, q, post);
    }
    assert OccursAt(Lower(q), Lower(q), 0);
    (text: string) => Contains(Lower(text), Lower(q))
  }

  /** With the literal pattern, the case of the query does not matter. */
  lemma {:induction false} LiteralIgnoresCase(d: Dict, q: string)
    ensures MatchingKeys(d, Literal(q)) == MatchingKeys(d, Literal(Lower(q)))
  {
    LowerIdempotent(q);
    forall i | 0 <= i < |d|
      ensures Literal(q)(d[i].text) == Literal(Lower(q))(d[i].text)
    {
    }
    Seqs.FilterAgree(d, (e: Entry) => Literal(q)(e.text), (e: Entry) => Literal(Lower(q))(e.text));
  }

  /** `search_books(d, bc)`: the keys containing `bc + ":"`, in dict order. */
  function SearchBooks(d: Dict, bc: string): (r: seq<string>)
    ensures forall i | 0 <= i < |r| :: r[i] in Keys(d) && Contains(r[i], bc + ":")
    ensures forall i | 0 <= i < |d| :: Contains(d[i].key, bc + ":") ==> d[i].key in r
  {
    Seqs.Filter(Keys(d), (k: string) => Contains(k, bc + ":"))
  }

  /** On a dict the chapter listing keeps dict order and lists no key twice. */
  lemma SearchBooksOrdered(d: Dict, bc: string)
    requires UniqueKeys(d)
    ensures Seqs.IsSubseq(SearchBooks(d, bc), Keys(d))
    ensures Seqs.Distinct(SearchBooks(d, bc))
  {
    Seqs.FilterIsSubseq(Keys(d), (k: string) => Contains(k, bc + ":"));
    Seqs.SubseqDistinct(SearchBooks(d, bc), Keys(d));
  }

  /** The characters of a key "b c:v", position by position. */
  lemma KeyLayout(b: string, c: string, v: string)
    ensures var key := b + " " + c + ":" + v;
      && |key| == |b| + |c| + |v| + 2
      && (forall k | 0 <= k < |b| :: key[k] == b[k])
      && key[|b|] == ' '
      && (forall k | 0 <= k < |c| :: key[|b| + 1 + k] == c[k])
      && key[|b| + 1 + |c|] == ':'
      && (forall k | 0 <= k < |v| :: key[|b| + 2 + |c| + k] == v[k])
  {
  }

  /** The only whitespace in a key "b c:v" of space-free parts is the space
      after the book. */
  lemma KeySpace(b: string, c: string, v: string, k: nat)
    requires NoSpace(b) && NoSpace(c) && NoSpace(v)
    requires k < |b + " " + c + ":" + v| && IsSpace((b + " " + c + ":" + v)[k])
    ensures k == |b|
  {
    KeyLayout(b, c, v);
    var key := b + " " + c + ":" + v;
    forall j | 0 <= j < |key| && j != |b| ensures !IsSpace(key[j]) {
      if j < |b| {
        assert key[j] == b[j];
      } else if j < |b| + 1 + |c| {
        assert key[j] == c[j - |b| - 1];
      } else if j > |b| + 1 + |c| {
        assert key[j] == v[j - |b| - 2 - |c|];
      }
    }
  }

  /** Two colon-free fields that are both followed by ':' at the start of
      `s` are the same field. */
  lemma ColonEndsField(x: string, y: string, s: string)
    requires ':' !in x && ':' !in y
    requires StartsWith(s, x + ":") && StartsWith(s, y + ":")
    ensures x == y
  {
    assert s[|x|] == (x + ":")[|x|] && s[|y|] == (y + ":")[|y|];
    forall k | 0 <= k < |x| ensures s[k] != ':' {
      assert s[k] == (x + ":")[k] == x[k] && x[k] in x;
    }
    forall k | 0 <= k < |y| ensures s[k] != ':' {
      assert s[k] == (y + ":")[k] == y[k] && y[k] in y;
    }
    assert |x| == |y|;
    assert x == s[..|x|] == y;
  }

  /** An occurrence of "b c:" in a key "b' c1:v" lines up the two spaces. */
  lemma PatternAligns(b: string, b': string, c1: string, c2: string, v: string)
    requires NoSpace(b') && NoSpace(c1) && NoSpace(v)
    requires Contains(b' + " " + c1 + ":" + v, b + " " + c2 + ":")
    ensures |b| <= |b'| && OccursAt(b' + " " + c1 + ":" + v, b + " " + c2 + ":", |b'| - |b|)
  {
    var key := b' + " " + c1 + ":" + v;
    var pat := b + " " + c2 + ":";
    var i :| 0 <= i <= |key| - |pat| && OccursAt(key, pat, i);
    assert key[i + |b|] == pat[|b|] == ' ';
    KeySpace(b', c1, v, i + |b|);
  }

  lemma ChapterPatternOnlyIf(b: string, b': string, c1: string, c2: string, v: string)
    requires NoSpace(b') && NoSpace(c1) && NoSpace(v)
    requires ':' !in c1 && ':' !in c2
    requires Contains(b' + " " + c1 + ":" + v, b + " " + c2 + ":")
    ensures IsSuffix(b, b') && c1 == c2
  {
    var key := b' + " " + c1 + ":" + v;
    var pat := b + " " + c2 + ":";
    PatternAligns(b, b', c1, c2, v);
    var i := |b'| - |b|;
    assert key[i..i + |pat|] == pat;
    assert b'[i..] == b by {
      forall k | 0 <= k < |b| ensures b'[i..][k] == b[k] {
        assert key[i + k] == pat[k];
      }
    }
    var rest := key[|b'| + 1..];
    assert rest[..|c1| + 1] == c1 + ":";
    assert rest[..|c2| + 1] == c2 + ":" by {
      forall k | 0 <= k <= |c2| ensures rest[k] == (c2 + ":")[k] {
        assert rest[k] == key[i + |b| + 1 + k] == pat[|b| + 1 + k];
      }
    }
    ColonEndsField(c1, c2, rest);
  }

  lemma ChapterPatternIf(b: string, b': string, c: string, v: string)
    requires IsSuffix(b, b')
    ensures Contains(b' + " " + c + ":" + v, b + " " + c + ":")
  {
    var key := b' + " " + c + ":" + v;
    var pat := b + " " + c + ":";
    var i := |b'| - |b|;
    KeyLayout(b', c, v);
    KeyLayout(b, c, "");
    assert pat == b + " " + c + ":" + "";
    forall k | 0 <= k < |pat| ensures key[i + k] == pat[k] {
      if k < |b| {
        assert b'[|b'| - |b|..][k] == b[k];
      }
    }
    assert key[i..i + |pat|] == pat;
    assert OccursAt(key, pat, i);
  }

  /** Why `search_books` appends ':'. In a key "b' c1:v" of the loaded shape,
      the chapter pattern "b c2:" occurs exactly when `b` ends `b'` and the
      chapters are equal: chapter "1" never lists chapter "11", while the book
      part matches any book whose abbreviation ends with it ("Jo" also lists
      "1Jo", "2Jo" and "3Jo"). */
  lemma ChapterPattern(b: string, b': string, c1: string, c2: string, v: string)
    requires NoSpace(b') && NoSpace(c1) && NoSpace(v)
    requires ':' !in c1 && ':' !in c2
    ensures Contains(b' + " " + c1 + ":" + v, b + " " + c2 + ":")
        <==> IsSuffix(b, b') && c1 == c2
  {
    if Contains(b' + " " + c1 + ":" + v, b + " " + c2 + ":") {
      ChapterPatternOnlyIf(b, b', c1, c2, v);
    }
    if IsSuffix(b, b') && c1 == c2 {
      ChapterPatternIf(b, b', c1, v);
    }
  }

  /** A chapter listing "b c" lists the verse "b' c1:v" of the dict exactly
      when `b` ends `b'` and `c1` is `c`. */
  lemma SearchBooksExact(d: Dict, b: string, c: string, i: nat, b': string, c1: string, v: string)
    requires i < |d| && d[i].key == b' + " " + c1 + ":" + v
    requires NoSpace(b') && NoSpace(c1) && NoSpace(v) && ':' !in c1 && ':' !in c
    ensures d[i].key in SearchBooks(d, b + " " + c) <==> IsSuffix(b, b') && c1 == c
  {
    var r := SearchBooks(d, b + " " + c);
    assert b + " " + c + ":" == b + " " + c + ":";
    ChapterPattern(b, b', c1, c, v);
    if d[i].key in r {
      var j :| 0 <= j < |r| && r[j] == d[i].key;
      assert Contains(r[j], b + " " + c + ":");
    }
  }

  /** Every key `search_bible` returns is a key of the dict. */
  lemma MatchingKeysIn(d: Dict, matches: string -> bool)
    ensures forall k | k in MatchingKeys(d, matches) :: k in Keys(d)
  {
    var p := TextTest(matches);
    Seqs.FilterIsSubseq(d, p);
    KeysSubseq(Seqs.Filter(d, p), d);
    Seqs.SubseqMembers(MatchingKeys(d, matches), Keys(d));
  }
}

=== FILE: repl.dfy ===
/** One turn of the terminal program's command loop: reading the command line,
    and what the turn shows, says and leaves behind. */
module Repl {
  import opened Options
  import opened Text
  import opened Store
  import opened Queries
  import opened Classifier

  datatype Command =
    | Quit
    | Help
    | ToggleWrap
    | Search
    | Listing(book: string, chapter: string)
    | Exact(book: string, chapter: string, verse: string)
    | Invalid

  predicate IsComma(c: char) {
    c == ','
  }

  /** The dispatch on the command line: any comma selects the "B,C" or
      "B,C,V" forms by the number of comma-separated parts, each stripped;
      otherwise the line must be one of the single-letter commands exactly. */
  function ParseCommand(line: string): (r: Command)
    ensures r == Quit <==> line == "Q" || line == "q"
    ensures r == Help <==> line == "?"
    ensures r == ToggleWrap <==> line == "W" || line == "w"
    ensures r == Search <==> line == "S" || line == "s"
    ensures r.Listing? || r.Exact? ==> ',' in line
    ensures ',' in line ==> r.Listing? || r.Exact? || r == Invalid
  {
    if ',' in line then
      var parts := Split(line, IsComma);
      if |parts| == 2 then Listing(Strip(parts[0]), Strip(parts[1]))
      else if |parts| == 3 then Exact(Strip(parts[0]), Strip(parts[1]), Strip(parts[2]))
      else Invalid
    else if line == "Q" || line == "q" then Quit
    else if line == "?" then Help
    else if line == "W" || line == "w" then ToggleWrap
    else if line == "S" || line == "s" then Search
    else Invalid
  }

  /** A verse as `print_verse` shows it: its key, its text and its colour. */
  datatype Shown = Shown(key: string, text: string, style: Style)

  /** `print_verse` for each key in turn. */
  function ShowAll(d: Dict, keys: seq<string>): (r: seq<Shown>)
    requires forall i | 0 <= i < |keys| :: keys[i] in Keys(d)
    ensures |r| == |keys|
    ensures forall i | 0 <= i < |keys| ::
      r[i].key == keys[i] && Get(d, keys[i]) == Some(r[i].text) && r[i].style == Classify(r[i].text)
  {
    seq(|keys|, i requires 0 <= i < |keys| =>
      var t := Get(d, keys[i]).value; Shown(keys[i], t, Classify(t)))
  }

  /** The status line a turn prints after the verses it shows, if any. */
  datatype Message =
    | Silent
    | BookList
    | WrapSwapped
    | NoSuchChapter(key: string)
    | NoSuchVerse(key: string)
    | NothingMatched(query: string)
    | Found(count: nat, query: string)
    | InvalidCommand

  /** What a turn shows and says, the wrap flag after it, and whether the loop
      goes on. */
  datatype Reply = Reply(shown: seq<Shown>, message: Message, wrapped: bool, running: bool)

  /** One turn of the loop on the command `line`. `searchLine` is the second
      line the "S" command reads, and `pattern(q)` is the compiled
      case-insensitive pattern for the query `q`. */
  function Step(d: Dict, wrapped: bool, line: string, searchLine: string,
                pattern: string -> string -> bool): (r: Reply)
    ensures r.running <==> ParseCommand(line) != Quit
    ensures r.wrapped == (if ParseCommand(line) == ToggleWrap then !wrapped else wrapped)
    ensures forall i | 0 <= i < |r.shown| :: Get(d, r.shown[i].key) == Some(r.shown[i].text)
  {
    match ParseCommand(line)
    case Quit => Reply([], Silent, wrapped, false)
    case Help => Reply([], BookList, wrapped, true)
    case ToggleWrap => Reply([], WrapSwapped, !wrapped, true)
    case Search =>
      var query := Join(Words(searchLine), " ");
      var keys := MatchingKeys(d, pattern(query));
      MatchingKeysIn(d, pattern(query));
      Reply(ShowAll(d, keys), if |keys| < 1 then NothingMatched(query) else Found(|keys|, query),
            wrapped, true)
    case Listing(b, c) =>
      var key := b + " " + c;
      var keys := SearchBooks(d, key);
      if |keys| < 1 then Reply([], NoSuchChapter(key), wrapped, true)
      else Reply(ShowAll(d, keys), Silent, wrapped, true)
    case Exact(b, c, v) =>
      var key := b + " " + c + ":" + v;
      if key in Keys(d) then Reply(ShowAll(d, [key]), Silent, wrapped, true)
      else Reply([], NoSuchVerse(key), wrapped, true)
    case Invalid => Reply([], InvalidCommand, wrapped, true)
  }

  /** The loop ends exactly on "Q" or "q". */
  lemma QuitOnlyOnQ(d: Dict, wrapped: bool, line: string, searchLine: string,
                    pattern: string -> string -> bool)
    ensures !Step(d, wrapped, line, searchLine, pattern).running <==> line == "Q" || line == "q"
  {
    if line == "Q" || line == "q" {
      assert ',' !in line;
    }
  }

  /** Two "W" turns restore the wrap flag. */
  lemma WrapTwice(d: Dict, wrapped: bool, w1: string, w2: string, searchLine: string,
                  pattern: string -> string -> bool)
    requires w1 in ["W", "w"] && w2 in ["W", "w"]
    ensures var r1 := Step(d, wrapped, w1, searchLine, pattern);
      && r1.wrapped == !wrapped
      && Step(d, r1.wrapped, w2, searchLine, pattern).wrapped == wrapped
  {
    assert ',' !in w1 && ',' !in w2;
  }

  /** A string without whitespace at either end strips to itself. */
  lemma StripClean(s: string)
    requires |s| > 0 ==> !IsSpace(s[0]) && !IsSpace(s[|s| - 1])
    ensures Strip(s) == s
  {
    var r := Strip(s);
    var i, j :| 0 <= i <= j <= |s| && r == s[i..j]
      && (forall k | 0 <= k < i :: IsSpace(s[k]))
      && (forall k | j <= k < |s| :: IsSpace(s[k]));
    if |s| > 0 {
      assert !IsSpace(s[0]) && !IsSpace(s[|s| - 1]);
    }
  }

  /** A comma-free first part is the first comma field. */
  lemma SplitComma(p: string, t: string)
    requires ',' !in p
    ensures Split(p + "," + t, IsComma) == [p] + Split(t, IsComma)
  {
    SplitField(p, ',', t, IsComma);
    assert p + "," + t == p + [','] + t;
  }

  /** "B,C": two comma-free parts are read as a chapter listing of the
      stripped parts. */
  lemma ParseListing(p0: string, p1: string)
    requires ',' !in p0 && ',' !in p1
    ensures ParseCommand(p0 + "," + p1) == Listing(Strip(p0), Strip(p1))
  {
    SplitNoSep(p1, IsComma);
    SplitComma(p0, p1);
    assert (p0 + "," + p1)[|p0|] == ',';
  }

  /** "B,C,V": three comma-free parts are read as an exact verse lookup of the
      stripped parts. */
  lemma ParseExact(p0: string, p1: string, p2: string)
    requires ',' !in p0 && ',' !in p1 && ',' !in p2
    ensures ParseCommand(p0 + "," + p1 + "," + p2) == Exact(Strip(p0), Strip(p1), Strip(p2))
  {
    SplitThree(p0, p1, p2);
    ParseThree(p0 + "," + p1 + "," + p2, p0, p1, p2);
  }

  /** Three comma-free parts joined by commas split back into those parts. */
  lemma SplitThree(p0: string, p1: string, p2: string)
    requires ',' !in p0 && ',' !in p1 && ',' !in p2
    ensures var line := p0 + "," + p1 + "," + p2;
      ',' in line && Split(line, IsComma) == [p0, p1, p2]
  {
    var line := p0 + "," + p1 + "," + p2;
    SplitNoSep(p2, IsComma);
    SplitComma(p1, p2);
    SplitComma(p0, p1 + "," + p2);
    assert line == p0 + "," + (p1 + "," + p2);
    assert line[|p0|] == ',';
  }

  /** A line with a comma that splits into three comma fields is a verse lookup. */
  lemma ParseThree(line: string, p0: string, p1: string, p2: string)
    requires ',' in line && Split(line, IsComma) == [p0, p1, p2]
    ensures ParseCommand(line) == Exact(Strip(p0), Strip(p1), Strip(p2))
  {
  }

  /** Four or more comma-separated parts are an invalid command. */
  lemma ParseTooManyParts(p0: string, p1: string, p2: string, rest: string)
    requires ',' !in p0 && ',' !in p1 && ',' !in p2
    ensures ParseCommand(p0 + "," + p1 + "," + p2 + "," + rest) == Invalid
  {
    var line := p0 + "," + p1 + "," + p2 + "," + rest;
    SplitComma(p2, rest);
    SplitComma(p1, p2 + "," + rest);
    SplitComma(p0, p1 + "," + (p2 + "," + rest));
    assert line == p0 + "," + (p1 + "," + (p2 + "," + rest));
    assert |Split(line, IsComma)| >= 4;
    assert line[|p0|] == ',';
  }

  /** A chapter listing shows the verses `search_books` returns, in its order,
      and reports "not found" exactly when it returns none. */
  lemma StepListing(d: Dict, wrapped: bool, line: string, searchLine: string,
                    pattern: string -> string -> bool, b: string, c: string)
    requires ParseCommand(line) == Listing(b, c)
    ensures var r := Step(d, wrapped, line, searchLine, pattern);
      var keys := SearchBooks(d, b + " " + c);
      && (r.message == NoSuchChapter(b + " " + c) <==> |keys| == 0)
      && |r.shown| == |keys|
      && forall i | 0 <= i < |keys| :: r.shown[i].key == keys[i]
  {
  }

  /** A verse lookup shows the one verse exactly when its key is stored. */
  lemma StepExact(d: Dict, wrapped: bool, line: string, searchLine: string,
                  pattern: string -> string -> bool, b: string, c: string, v: string)
    requires ParseCommand(line) == Exact(b, c, v)
    ensures var r := Step(d, wrapped, line, searchLine, pattern);
      var key := b + " " + c + ":" + v;
      && (key in Keys(d) <==> |r.shown| == 1 && r.shown[0].key == key && Some(r.shown[0].text) == Get(d, key))
      && (key !in Keys(d) <==> r.message == NoSuchVerse(key))
  {
  }

  /** A search shows one verse per matching key, and reports "nothing
      matched" exactly when no stored text matches the query, otherwise the
      number of verses shown. */
  lemma StepSearch(d: Dict, wrapped: bool, line: string, searchLine: string,
                   pattern: string -> string -> bool)
    requires UniqueKeys(d)
    requires ParseCommand(line) == Search
    ensures var r := Step(d, wrapped, line, searchLine, pattern);
      var query := Join(Words(searchLine), " ");
      && |r.shown| == |MatchingKeys(d, pattern(query))|
      && (forall i | 0 <= i < |r.shown| :: r.shown[i].key == MatchingKeys(d, pattern(query))[i])
      && (r.message == NothingMatched(query) <==> forall i | 0 <= i < |d| :: !pattern(query)(d[i].text))
      && (r.message.Found? ==> r.message.count == |r.shown|)
  {
    var query := Join(Words(searchLine), " ");
    var keys := MatchingKeys(d, pattern(query));
    forall i | 0 <= i < |d| ensures d[i].key in keys <==> pattern(query)(d[i].text) {
      MatchingKeysExact(d, pattern(query), i);
    }
    if |keys| > 0 {
      MatchingKeysIn(d, pattern(query));
      assert keys[0] in Keys(d);
      var i :| 0 <= i < |d| && d[i].key == keys[0];
    }
  }
}

=== FILE: seqs.dfy ===
/** Order-preserving filtering of sequences, the shape of every list comprehension
    and accumulating `for` loop in the two programs. */
module Seqs {
  import opened Options

  /** `[x for x in s if p(x)]`. */
  function Filter<T(==)>(s: seq<T>, p: T -> bool): (r: seq<T>)
    ensures |r| <= |s|
    ensures forall i | 0 <= i < |r| :: r[i] in s && p(r[i])
    ensures forall i | 0 <= i < |s| :: p(s[i]) ==> s[i] in r
    decreases |s|
  {
    if |s| == 0 then []
    else if p(s[0]) then [s[0]] + Filter(s[1..], p)
    else Filter(s[1..], p)
  }

  /** `a` can be obtained from `b` by deleting elements: it keeps `b`'s order. */
  predicate IsSubseq<T(==)>(a: seq<T>, b: seq<T>)
    decreases |b|
  {
    |a| == 0 || (|b| > 0 && ((a[0] == b[0] && IsSubseq(a[1..], b[1..])) || IsSubseq(a, b[1..])))
  }

  /** No element occurs twice. */
  predicate Distinct<T(==)>(s: seq<T>) {
    forall i, j | 0 <= i < j < |s| :: s[i] != s[j]
  }

  /** In a sequence without repeats, equal elements sit at the same index. */
  lemma DistinctIndex<T>(s: seq<T>, a: nat, b: nat)
    requires Distinct(s) && a < |s| && b < |s| && s[a] == s[b]
    ensures a == b
  {
  }

  /** The comprehension keeps every copy of a passing element and no copy of
      a failing one. */
  lemma {:induction false} FilterCounts<T>(s: seq<T>, p: T -> bool)
    ensures forall x :: multiset(Filter(s, p))[x] == if p(x) then multiset(s)[x] else 0
    decreases |s|
  {
    if |s| > 0 {
      FilterCounts(s[1..], p);
      assert s == [s[0]] + s[1..];
      assert multiset(s) == multiset([s[0]]) + multiset(s[1..]);
    }
  }

  /** The comprehension keeps the elements it keeps in their original order. */
  lemma {:induction false} FilterIsSubseq<T>(s: seq<T>, p: T -> bool)
    ensures IsSubseq(Filter(s, p), s)
    decreases |s|
  {
    if |s| > 0 {
      FilterIsSubseq(s[1..], p);
    }
  }

  /** Filtering a sequence extended by one element: the loop form of the comprehension. */
  lemma {:induction false} FilterSnoc<T>(s: seq<T>, x: T, p: T -> bool)
    ensures Filter(s + [x], p) == Filter(s, p) + (if p(x) then [x] else [])
    decreases |s|
  {
    if |s| == 0 {
      assert s + [x] == [x];
      assert [x][1..] == [];
    } else {
      assert (s + [x])[1..] == s[1..] + [x];
      FilterSnoc(s[1..], x, p);
    }
  }

  /** Two tests that agree on the elements of `s` select the same elements. */
  lemma {:induction false} FilterAgree<T>(s: seq<T>, p: T -> bool, q: T -> bool)
    requires forall i | 0 <= i < |s| :: p(s[i]) == q(s[i])
    ensures Filter(s, p) == Filter(s, q)
    decreases |s|
  {
    if |s| > 0 {
      FilterAgree(s[1..], p, q);
    }
  }

  /** A weaker test keeps at least the elements a stronger one keeps, in the same order. */
  lemma {:induction false} FilterMonotone<T>(s: seq<T>, p: T -> bool, q: T -> bool)
    requires forall i | 0 <= i < |s| :: p(s[i]) ==> q(s[i])
    ensures IsSubseq(Filter(s, p), Filter(s, q))
    decreases |s|
  {
    if |s| > 0 {
      FilterMonotone(s[1..], p, q);
    }
  }

  /** Every element of a subsequence is an element of the whole. */
  lemma {:induction false} SubseqMembers<T>(a: seq<T>, b: seq<T>)
    requires IsSubseq(a, b)
    ensures forall x | x in a :: x in b
    decreases |b|
  {
    if |a| > 0 {
      if a[0] == b[0] && IsSubseq(a[1..], b[1..]) {
        SubseqMembers(a[1..], b[1..]);
        forall x | x in a ensures x in b {
          if x != a[0] {
            assert x in a[1..];
          }
        }
      } else {
        SubseqMembers(a, b[1..]);
      }
    }
  }

  /** Deleting elements cannot create a duplicate. */
  lemma {:induction false} SubseqDistinct<T>(a: seq<T>, b: seq<T>)
    requires IsSubseq(a, b) && Distinct(b)
    ensures Distinct(a)
    decreases |b|
  {
    if |a| > 0 {
      assert Distinct(b[1..]) by {
        forall i, j | 0 <= i < j < |b[1..]| ensures b[1..][i] != b[1..][j] {
          assert b[1..][i] == b[i + 1] && b[1..][j] == b[j + 1];
        }
      }
      if a[0] == b[0] && IsSubseq(a[1..], b[1..]) {
        SubseqDistinct(a[1..], b[1..]);
        SubseqMembers(a[1..], b[1..]);
        assert b[0] !in b[1..] by {
          forall j | 0 <= j < |b[1..]| ensures b[1..][j] != b[0] {
            assert b[1..][j] == b[j + 1];
          }
        }
        forall i, j | 0 <= i < j < |a| ensures a[i] != a[j] {
          if i == 0 {
            assert a[j] == a[1..][j - 1];
            assert a[j] in a[1..];
          } else {
            assert a[i] == a[1..][i - 1] && a[j] == a[1..][j - 1];
          }
        }
      } else {
        SubseqDistinct(a, b[1..]);
      }
    }
  }

  /** The index of the first element passing `p`, if any: `next(...)` over a
      generator, or the point where a comprehension raises. */
  function FirstWhere<T>(s: seq<T>, p: T -> bool): (r: Option<nat>)
    ensures r.Some? ==> r.value < |s| && p(s[r.value])
    ensures r.Some? ==> forall j | 0 <= j < r.value :: !p(s[j])
    ensures r.None? <==> forall j | 0 <= j < |s| :: !p(s[j])
    decreases |s|
  {
    if |s| == 0 then None
    else if p(s[0]) then Some(0)
    else match FirstWhere(s[1..], p)
      case None => None
      case Some(k) => Some(k + 1)
  }
}

=== FILE: store.dfy ===
/** The REPL's `bible_dict`: a Python dict from "<book> <chapter>:<verse>" keys to
    verse text. A Python dict remembers insertion order, so it is modelled as a
    sequence of entries with distinct keys. */
module Store {
  import opened Options
  import Seqs

  datatype Entry = Entry(key: string, text: string)

  type Dict = seq<Entry>

  /** `list(d.keys())`, in insertion order. */
  function Keys(d: Dict): (ks: seq<string>)
    ensures |ks| == |d|
    ensures forall i | 0 <= i < |d| :: ks[i] == d[i].key
    decreases |d|
  {
    if |d| == 0 then [] else [d[0].key] + Keys(d[1..])
  }

  /** No key is stored twice: what makes a sequence of entries a dict. */
  predicate UniqueKeys(d: Dict) {
    Seqs.Distinct(Keys(d))
  }

  /** `d.get(k)`: the text stored under `k`. */
  function Get(d: Dict, k: string): (r: Option<string>)
    ensures r.Some? <==> k in Keys(d)
    ensures r.Some? ==> exists i | 0 <= i < |d| :: d[i] == Entry(k, r.value)
    decreases |d|
  {
    if |d| == 0 then None
    else if d[0].key == k then Some(d[0].text)
    else Get(d[1..], k)
  }

  /** `d[k] = v`: an existing key keeps its position and takes the new value;
      a new key is appended at the end. */
  function Put(d: Dict, k: string, v: string): (r: Dict)
    ensures |r| >= |d|
    ensures Get(r, k) == Some(v)
    ensures forall k' | k' != k :: Get(r, k') == Get(d, k')
    decreases |d|
  {
    if |d| == 0 then [Entry(k, v)]
    else if d[0].key == k then [Entry(k, v)] + d[1..]
    else
      var r := [d[0]] + Put(d[1..], k, v);
      assert r[1..] == Put(d[1..], k, v);
      r
  }

  /** Where a stored key ends up: an existing key keeps its position, a new key
      goes last. */
  lemma {:induction false} PutKeys(d: Dict, k: string, v: string)
    ensures k in Keys(d) ==> Keys(Put(d, k, v)) == Keys(d)
    ensures k !in Keys(d) ==> Keys(Put(d, k, v)) == Keys(d) + [k]
    decreases |d|
  {
    if |d| > 0 && d[0].key != k {
      PutKeys(d[1..], k, v);
      assert Keys(d) == [d[0].key] + Keys(d[1..]);
      assert Keys(Put(d, k, v)) == [d[0].key] + Keys(Put(d[1..], k, v));
    }
  }

  /** Storing keeps the keys distinct. */
  lemma {:induction false} PutKeepsUnique(d: Dict, k: string, v: string)
    requires UniqueKeys(d)
    ensures UniqueKeys(Put(d, k, v))
  {
    PutKeys(d, k, v);
    if k !in Keys(d) {
      forall i, j | 0 <= i < j < |Keys(d) + [k]| ensures (Keys(d) + [k])[i] != (Keys(d) + [k])[j] {
        if j == |Keys(d)| {
          assert (Keys(d) + [k])[i] == Keys(d)[i];
        }
      }
    }
  }

  /** Assigning `d[e.key] = e.text` for every entry in turn, from an empty dict. */
  function Assign(es: seq<Entry>): (d: Dict)
    ensures UniqueKeys(d)
    decreases |es|
  {
    if |es| == 0 then []
    else
      var d := Assign(es[..|es| - 1]);
      var e := es[|es| - 1];
      PutKeepsUnique(d, e.key, e.text);
      Put(d, e.key, e.text)
  }

  /** The text of the last entry for `k`, if there is one. */
  function LastText(es: seq<Entry>, k: string): (r: Option<string>)
    ensures r.None? <==> forall i | 0 <= i < |es| :: es[i].key != k
    ensures r.Some? ==> exists i | 0 <= i < |es| ::
      es[i] == Entry(k, r.value) && forall j | i < j < |es| :: es[j].key != k
    decreases |es|
  {
    if |es| == 0 then None
    else if es[|es| - 1].key == k then Some(es[|es| - 1].text)
    else LastText(es[..|es| - 1], k)
  }

  /** Last write wins: every key holds the text of its last entry, and only
      keys of some entry are present. */
  lemma {:induction false} AssignLastWriteWins(es: seq<Entry>, k: string)
    ensures Get(Assign(es), k) == LastText(es, k)
    decreases |es|
  {
    if |es| > 0 {
      AssignLastWriteWins(es[..|es| - 1], k);
    }
  }

  /** The keys of `ks` in order of first occurrence, each once: the order in
      which a dict fed these keys lists them. */
  function Dedup(ks: seq<string>): (r: seq<string>)
    decreases |ks|
  {
    if |ks| == 0 then []
    else
      var p := Dedup(ks[..|ks| - 1]);
      if ks[|ks| - 1] in p then p else p + [ks[|ks| - 1]]
  }

  /** The position of the first `x` in `ks`, or |ks| if there is none. */
  function Pos(ks: seq<string>, x: string): (r: nat)
    ensures r <= |ks|
    ensures r < |ks| ==> ks[r] == x
    ensures forall j | 0 <= j < r :: ks[j] != x
    decreases |ks|
  {
    if |ks| == 0 then 0
    else if ks[0] == x then 0
    else 1 + Pos(ks[1..], x)
  }

  lemma {:induction false} KeysPrefix(es: seq<Entry>, n: nat)
    requires n <= |es|
    ensures Keys(es[..n]) == Keys(es)[..n]
  {
  }

  /** The dict built by the assignments lists exactly the deduplicated keys. */
  lemma {:induction false} AssignKeysDedup(es: seq<Entry>)
    ensures Keys(Assign(es)) == Dedup(Keys(es))
    decreases |es|
  {
    if |es| > 0 {
      var n := |es| - 1;
      var e := es[n];
      AssignKeysDedup(es[..n]);
      KeysPrefix(es, n);
      PutKeys(Assign(es[..n]), e.key, e.text);
    }
  }

  /** Deduplicating keeps exactly the keys present. */
  lemma {:induction false} DedupMembers(ks: seq<string>, x: string)
    ensures x in Dedup(ks) <==> x in ks
    decreases |ks|
  {
    if |ks| > 0 {
      DedupMembers(ks[..|ks| - 1], x);
      assert ks == ks[..|ks| - 1] + [ks[|ks| - 1]];
    }
  }

  lemma PosSnoc(ks: seq<string>, k: string, x: string)
    ensures x in ks ==> Pos(ks + [k], x) == Pos(ks, x)
    ensures x !in ks && x == k ==> Pos(ks + [k], x) == |ks|
  {
    var p := Pos(ks + [k], x);
    if x in ks {
      var q := Pos(ks, x);
      assert (ks + [k])[q] == x;
    } else {
      assert (ks + [k])[|ks|] == k;
    }
  }

  /** Deduplicating orders the keys by first occurrence. */
  lemma {:induction false} DedupOrder(ks: seq<string>)
    ensures var r := Dedup(ks);
      forall i, j | 0 <= i < j < |r| :: Pos(ks, r[i]) < Pos(ks, r[j])
    decreases |ks|
  {
    if |ks| > 0 {
      var p := ks[..|ks| - 1];
      var k := ks[|ks| - 1];
      DedupOrder(p);
      assert ks == p + [k];
      var d := Dedup(p);
      forall x | x in d ensures Pos(ks, x) == Pos(p, x) {
        DedupMembers(p, x);
        PosSnoc(p, k, x);
      }
      if k !in d {
        DedupOrderNew(p, k);
      }
    }
  }

  /** A key seen for the first time goes after every earlier key, in the
      order of first occurrence. */
  lemma DedupOrderNew(p: seq<string>, k: string)
    requires k !in Dedup(p)
    requires var d := Dedup(p);
      forall i, j | 0 <= i < j < |d| :: Pos(p, d[i]) < Pos(p, d[j])
    ensures var d := Dedup(p); var r := d + [k];
      forall i, j | 0 <= i < j < |r| :: Pos(p + [k], r[i]) < Pos(p + [k], r[j])
  {
    var d := Dedup(p);
    var ks := p + [k];
    DedupMembers(p, k);
    PosSnoc(p, k, k);
    var r := d + [k];
    forall i, j | 0 <= i < j < |r| ensures Pos(ks, r[i]) < Pos(ks, r[j]) {
      assert r[i] == d[i] && d[i] in d;
      DedupMembers(p, d[i]);
      PosSnoc(p, k, d[i]);
      if j < |d| {
        assert r[j] == d[j] && d[j] in d;
        DedupMembers(p, d[j]);
        PosSnoc(p, k, d[j]);
      }
    }
  }

  /** The keys present are exactly the keys of some entry. */
  lemma {:induction false} AssignKeys(es: seq<Entry>, x: string)
    ensures x in Keys(Assign(es)) <==> x in Keys(es)
  {
    AssignKeysDedup(es);
    DedupMembers(Keys(es), x);
  }

  /** A repeated key keeps the position of its first entry: the keys are
      ordered by the first entry of each. */
  lemma {:induction false} AssignKeepsFirstPosition(es: seq<Entry>)
    ensures var ks := Keys(Assign(es));
      forall i, j | 0 <= i < j < |ks| :: Pos(Keys(es), ks[i]) < Pos(Keys(es), ks[j])
  {
    AssignKeysDedup(es);
    DedupOrder(Keys(es));
  }
}

=== FILE: text.dfy ===
/** The Python string primitives both programs rely on, restricted to ASCII:
    character classes of `re` (`\s`, `\d`, `\w`), `str.lower`, the `in` operator,
    `re.split` on a one-character class, `str.split()`, `str.join`, `str.strip`,
    and the decimal conversions `str(n)` and `int(s)`. */
module Text {
  import opened Options
  import Seqs

  /** `\s` and `str.isspace()` on ASCII: space, \t, \n, \v, \f, \r and the
      four separators \x1c..\x1f. */
  predicate IsSpace(c: char) {
    c == ' ' || c == '\t' || c == '\n' || c == '\U{B}' || c == '\U{C}' || c == '\r'
    || ('\U{1C}' <= c <= '\U{1F}')
  }

  /** `\d` on ASCII. */
  predicate IsDigit(c: char) {
    '0' <= c <= '9'
  }

  /** `\w` on ASCII: letters, digits and the underscore. */
  predicate IsWordChar(c: char) {
    ('a' <= c <= 'z') || ('A' <= c <= 'Z') || IsDigit(c) || c == '_'
  }

  predicate NoSpace(s: string) {
    forall i | 0 <= i < |s| :: !IsSpace(s[i])
  }

  predicate AllDigits(s: string) {
    forall i | 0 <= i < |s| :: IsDigit(s[i])
  }

  function LowerChar(c: char): char {
    if 'A' <= c <= 'Z' then (c as int + 32) as char else c
  }

  /** `s.lower()`. */
  function Lower(s: string): (r: string)
    ensures |r| == |s|
    ensures forall i | 0 <= i < |s| :: r[i] == LowerChar(s[i])
  {
    seq(|s|, i requires 0 <= i < |s| => LowerChar(s[i]))
  }

  /** `sub` sits in `s` starting at index `i`. */
  predicate OccursAt(s: string, sub: string, i: int) {
    0 <= i && i + |sub| <= |s| && s[i..i + |sub|] == sub
  }

  /** Python's `sub in s`. */
  predicate Contains(s: string, sub: string) {
    exists i | 0 <= i <= |s| - |sub| :: OccursAt(s, sub, i)
  }

  /** `s.startswith(p)`. */
  predicate StartsWith(s: string, p: string) {
    |p| <= |s| && s[..|p|] == p
  }

  /** `p` is a suffix of `s`. */
  predicate IsSuffix(p: string, s: string) {
    |p| <= |s| && s[|s| - |p|..] == p
  }

  /** `re.split(c, s)` for a one-character class `c`: every separator character
      ends a field, so n separators give n + 1 fields, some possibly empty. */
  function Split(s: string, isSep: char -> bool): (r: seq<string>)
    ensures |r| >= 1
    ensures forall k, i | 0 <= k < |r| && 0 <= i < |r[k]| :: !isSep(r[k][i])
    decreases |s|
  {
    if |s| == 0 then [""]
    else
      var rest := Split(s[1..], isSep);
      if isSep(s[0]) then [""] + rest
      else [[s[0]] + rest[0]] + rest[1..]
  }

  /** `sep.join(parts)`. */
  function Join(parts: seq<string>, sep: string): string
    decreases |parts|
  {
    if |parts| == 0 then ""
    else if |parts| == 1 then parts[0]
    else parts[0] + sep + Join(parts[1..], sep)
  }

  /** The only whitespace in `s` is the plain space. */
  predicate SingleSpaced(s: string) {
    forall i | 0 <= i < |s| :: IsSpace(s[i]) ==> s[i] == ' '
  }

  /** Joining space-free parts with " " leaves plain spaces as the only
      whitespace. */
  lemma {:induction false} JoinSingleSpaces(parts: seq<string>)
    requires forall k | 0 <= k < |parts| :: NoSpace(parts[k])
    ensures SingleSpaced(Join(parts, " "))
    decreases |parts|
  {
    if |parts| == 1 {
      assert NoSpace(parts[0]);
    } else if |parts| >= 2 {
      assert NoSpace(parts[0]);
      JoinSingleSpaces(parts[1..]);
      var rest := Join(parts[1..], " ");
      var j := Join(parts, " ");
      assert j == parts[0] + " " + rest;
      forall i | 0 <= i < |j| && IsSpace(j[i]) ensures j[i] == ' ' {
        if i > |parts[0]| {
          assert j[i] == rest[i - |parts[0]| - 1];
        }
      }
    }
  }

  predicate NonEmpty(f: string) {
    |f| > 0
  }

  /** `s.split()` with no argument: the non-empty runs of non-whitespace. */
  function Words(s: string): (r: seq<string>)
    ensures forall k | 0 <= k < |r| :: |r[k]| > 0 && NoSpace(r[k])
  {
    Seqs.Filter(Split(s, IsSpace), NonEmpty)
  }

  function TrimStart(s: string): (r: string)
    decreases |s|
  {
    if |s| > 0 && IsSpace(s[0]) then TrimStart(s[1..]) else s
  }

  function TrimEnd(s: string): (r: string)
    decreases |s|
  {
    if |s| > 0 && IsSpace(s[|s| - 1]) then TrimEnd(s[..|s| - 1]) else s
  }

  /** `s.strip()`: the slice of `s` left after dropping whitespace at both ends. */
  function Strip(s: string): (r: string)
    ensures exists i, j | 0 <= i <= j <= |s| ::
      && r == s[i..j]
      && (forall k | 0 <= k < i :: IsSpace(s[k]))
      && (forall k | j <= k < |s| :: IsSpace(s[k]))
    ensures |r| > 0 ==> !IsSpace(r[0]) && !IsSpace(r[|r| - 1])
  {
    StripSlice(s);
    TrimEnd(TrimStart(s))
  }

  lemma StripSlice(s: string)
    ensures var r := TrimEnd(TrimStart(s));
      && (|r| > 0 ==> !IsSpace(r[0]) && !IsSpace(r[|r| - 1]))
      && exists i, j | 0 <= i <= j <= |s| ::
        && r == s[i..j]
        && (forall k | 0 <= k < i :: IsSpace(s[k]))
        && (forall k | j <= k < |s| :: IsSpace(s[k]))
  {
    TrimStartSlice(s);
    var t := TrimStart(s);
    TrimEndSlice(t);
    var i := |s| - |t|;
    var j := i + |TrimEnd(t)|;
    assert TrimEnd(t) == s[i..j];
    forall k | j <= k < |s| ensures IsSpace(s[k]) {
      assert s[k] == t[k - i];
    }
  }

  lemma {:induction false} TrimStartSlice(s: string)
    ensures |TrimStart(s)| <= |s| && TrimStart(s) == s[|s| - |TrimStart(s)|..]
    ensures forall k | 0 <= k < |s| - |TrimStart(s)| :: IsSpace(s[k])
    ensures |TrimStart(s)| > 0 ==> !IsSpace(TrimStart(s)[0])
    decreases |s|
  {
    if |s| > 0 && IsSpace(s[0]) {
      TrimStartSlice(s[1..]);
      assert s[1..][|s[1..]| - |TrimStart(s[1..])|..] == s[|s| - |TrimStart(s)|..];
      forall k | 0 <= k < |s| - |TrimStart(s)| ensures IsSpace(s[k]) {
        if k > 0 {
          assert s[k] == s[1..][k - 1];
        }
      }
    }
  }

  lemma {:induction false} TrimEndSlice(s: string)
    ensures |TrimEnd(s)| <= |s| && TrimEnd(s) == s[..|TrimEnd(s)|]
    ensures forall k | |TrimEnd(s)| <= k < |s| :: IsSpace(s[k])
    ensures |TrimEnd(s)| > 0 ==> !IsSpace(TrimEnd(s)[|TrimEnd(s)| - 1])
    decreases |s|
  {
    if |s| > 0 && IsSpace(s[|s| - 1]) {
      TrimEndSlice(s[..|s| - 1]);
      forall k | |TrimEnd(s)| <= k < |s| ensures IsSpace(s[k]) {
        if k < |s| - 1 {
          assert s[k] == s[..|s| - 1][k];
        }
      }
    }
  }

  function DigitChar(d: nat): (c: char)
    requires d < 10
    ensures IsDigit(c)
  {
    ('0' as int + d) as char
  }

  function DigitValue(c: char): nat
    requires IsDigit(c)
  {
    c as int - '0' as int
  }

  /** `str(n)` for a natural number: its shortest decimal spelling. */
  function Decimal(n: nat): (r: string)
    ensures |r| > 0 && AllDigits(r)
    ensures r[0] == '0' <==> n == 0
    ensures |r| > 1 ==> r[0] != '0'
    decreases n
  {
    if n < 10 then [DigitChar(n)] else Decimal(n / 10) + [DigitChar(n % 10)]
  }

  /** The value of a string of decimal digits, most significant first. */
  function DigitsValue(s: string): nat
    requires AllDigits(s)
    decreases |s|
  {
    if |s| == 0 then 0
    else DigitsValue(s[..|s| - 1]) * 10 + DigitValue(s[|s| - 1])
  }

  /** `int(s)` on the strings it can read here: non-empty runs of ASCII digits,
      leading zeros allowed. Anything else raises ValueError, modelled as None. */
  function ParseNat(s: string): (r: Option<nat>)
    ensures r.Some? <==> |s| > 0 && AllDigits(s)
  {
    if |s| > 0 && AllDigits(s) then Some(DigitsValue(s)) else None
  }

  /** `int(str(n)) == n`: reading back the decimal spelling of `n` gives `n`. */
  lemma {:induction false} ParseDecimal(n: nat)
    ensures ParseNat(Decimal(n)) == Some(n)
    decreases n
  {
    var d := Decimal(n);
    if n < 10 {
      assert d[..|d| - 1] == [];
      assert DigitsValue(d) == DigitsValue([]) * 10 + DigitValue(d[0]);
      assert DigitValue(DigitChar(n)) == n;
    } else {
      ParseDecimal(n / 10);
      assert d[..|d| - 1] == Decimal(n / 10);
    }
  }

  /** Lowering twice is lowering once. */
  lemma LowerIdempotent(s: string)
    ensures Lower(Lower(s)) == Lower(s)
  {
  }

  /** Lower-casing commutes with slicing. */
  lemma LowerSlice(s: string, i: nat, j: nat)
    requires i <= j <= |s|
    ensures Lower(s)[i..j] == Lower(s[i..j])
  {
  }

  /** The lowered text contains the lowered query exactly when some slice of
      the text lowers to the lowered query. */
  lemma ContainsLowered(text: string, q: string)
    ensures Contains(Lower(text), Lower(q)) <==>
      exists i, j :: 0 <= i <= j <= |text| && Lower(text[i..j]) == Lower(q)
  {
    if Contains(Lower(text), Lower(q)) {
      var i :| 0 <= i <= |text| - |q| && OccursAt(Lower(text), Lower(q), i);
      LowerSlice(text, i, i + |q|);
    }
    if exists i, j :: 0 <= i <= j <= |text| && Lower(text[i..j]) == Lower(q) {
      var i, j :| 0 <= i <= j <= |text| && Lower(text[i..j]) == Lower(q);
      LowerSlice(text, i, j);
      assert OccursAt(Lower(text), Lower(q), i);
    }
  }

  /** Lower-casing keeps a string found inside a longer one: `sub` is in
      `pre + sub + post` whatever the case of either. */
  lemma LowerContainsInContext(pre: string, sub: string, post: string)
    ensures Contains(Lower(pre + sub + post), Lower(sub))
  {
    var t := Lower(pre + sub + post);
    assert t[|pre|..|pre| + |sub|] == Lower(sub);
    assert OccursAt(t, Lower(sub), |pre|);
  }

  lemma LowerIdempotentAll()
    ensures forall s :: Lower(Lower(s)) == Lower(s)
  {
    forall s ensures Lower(Lower(s)) == Lower(s) {
      LowerIdempotent(s);
    }
  }

  /** A field without separators splits to itself. */
  lemma {:induction false} SplitNoSep(a: string, isSep: char -> bool)
    requires forall i | 0 <= i < |a| :: !isSep(a[i])
    ensures Split(a, isSep) == [a]
    decreases |a|
  {
    if |a| > 0 {
      SplitNoSep(a[1..], isSep);
      assert [a[0]] + a[1..] == a;
    }
  }

  /** The split has a second field exactly when a separator occurs. */
  lemma {:induction false} SplitSingle(s: string, isSep: char -> bool)
    ensures |Split(s, isSep)| == 1 <==> forall i | 0 <= i < |s| :: !isSep(s[i])
    decreases |s|
  {
    if |s| > 0 {
      SplitSingle(s[1..], isSep);
      if !isSep(s[0]) {
        forall i | 1 <= i < |s| ensures s[i] == s[1..][i - 1] {}
      }
    }
  }

  /** A leading field ended by a separator becomes the first field, and the
      rest of the line is split on its own. */
  lemma {:induction false} SplitField(a: string, c: char, t: string, isSep: char -> bool)
    requires forall i | 0 <= i < |a| :: !isSep(a[i])
    requires isSep(c)
    ensures Split(a + [c] + t, isSep) == [a] + Split(t, isSep)
    decreases |a|
  {
    var s := a + [c] + t;
    if |a| == 0 {
      assert s[1..] == t;
    } else {
      assert s[1..] == a[1..] + [c] + t;
      SplitField(a[1..], c, t, isSep);
      assert [a[0]] + a[1..] == a;
    }
  }

  /** Splitting on a class and joining with `c` restores the string when every
      separator that occurs in it is `c` itself. */
  lemma {:induction false} JoinSplit(s: string, isSep: char -> bool, c: char)
    requires forall i | 0 <= i < |s| :: isSep(s[i]) ==> s[i] == c
    ensures Join(Split(s, isSep), [c]) == s
    decreases |s|
  {
    if |s| > 0 {
      var rest := Split(s[1..], isSep);
      JoinSplit(s[1..], isSep, c);
      if isSep(s[0]) {
        assert ([""] + rest)[1..] == rest;
      } else {
        var r := [[s[0]] + rest[0]] + rest[1..];
        if |rest| == 1 {
          assert Join(rest, [c]) == rest[0];
        } else {
          assert r[1..] == rest[1..];
          assert Join(rest, [c]) == rest[0] + [c] + Join(rest[1..], [c]);
          assert Join(r, [c]) == ([s[0]] + rest[0]) + [c] + Join(rest[1..], [c]);
        }
        assert [s[0]] + s[1..] == s;
      }
    }
  }

  /** "b cvt rest" with single spaces splits into `b`, `cvt` and the fields of `rest`. */
  lemma {:induction false} SplitLine(b: string, cvt: string, rest: string)
    requires NoSpace(b) && NoSpace(cvt)
    ensures Split(b + " " + cvt + " " + rest, IsSpace) == [b, cvt] + Split(rest, IsSpace)
  {
    assert b + " " + cvt + " " + rest == b + [' '] + (cvt + [' '] + rest);
    SplitField(b, ' ', cvt + [' '] + rest, IsSpace);
    SplitField(cvt, ' ', rest, IsSpace);
  }

  /** A run of non-whitespace is a single word. */
  lemma WordsOfRun(a: string)
    requires |a| > 0 && NoSpace(a)
    ensures Words(a) == [a]
  {
    SplitNoSep(a, IsSpace);
  }

  /** Leading whitespace is dropped: it never starts a word. */
  lemma WordsSkipSpace(c: char, t: string)
    requires IsSpace(c)
    ensures Words([c] + t) == Words(t)
  {
    assert ([c] + t)[1..] == t;
    var rest := Split(t, IsSpace);
    assert Split([c] + t, IsSpace) == [""] + rest;
    assert ([""] + rest)[1..] == rest;
  }

  /** A word ended by whitespace comes first, and the rest of the line is
      split into words on its own. */
  lemma WordsCons(a: string, c: char, t: string)
    requires |a| > 0 && NoSpace(a) && IsSpace(c)
    ensures Words(a + [c] + t) == [a] + Words(t)
  {
    SplitField(a, c, t, IsSpace);
    var rest := Split(t, IsSpace);
    assert ([a] + rest)[1..] == rest;
  }

  /** `s.split()` is empty exactly when `s` is all whitespace. */
  lemma {:induction false} WordsEmpty(s: string)
    ensures Words(s) == [] <==> forall i | 0 <= i < |s| :: IsSpace(s[i])
    decreases |s|
  {
    if |s| > 0 {
      assert s == [s[0]] + s[1..];
      if IsSpace(s[0]) {
        WordsSkipSpace(s[0], s[1..]);
        WordsEmpty(s[1..]);
        if forall i | 0 <= i < |s[1..]| :: IsSpace(s[1..][i]) {
          forall i | 0 <= i < |s| ensures IsSpace(s[i]) {
            if i > 0 { assert s[i] == s[1..][i - 1]; }
          }
        }
      } else {
        var rest := Split(s[1..], IsSpace);
        assert Split(s, IsSpace)[0] == [s[0]] + rest[0];
        assert NonEmpty(Split(s, IsSpace)[0]);
      }
    }
  }
}
